=== FILE: README.md ===
# plantmate, modelled in Dafny

plantmate is a recipe web application built with React Router. A signed-in
user keeps a list of recipes and can search it, filter it by tag, and show
favourites only. Recipes can be added, edited and deleted, and grouped into
collections. The user can also chat with a hosted language model (Mistral),
which answers food questions or proposes a recipe that the user can save.

This project models the server-side loaders and actions of those routes, the
page state that changes step by step (the chat transcript, the home page
filters, the step inputs of the new-recipe form), and the two model-calling
services. It proves what each of them promises.

- The document store is a class, `Store.Database`. Recipes and collections
  are maps keyed by id, and users are a sequence in the store's natural
  order. Every action that writes is a method with `modifies db`, and its
  postconditions give the new value of every field.
- The language model is a function parameter (an oracle) from a message
  list to a completion. The completion is either a thrown error or a list
  of choices.
- `bcrypt.hash` and `bcrypt.compare` are function parameters.
- Where the code catches a failing store call, the failure is a fault
  parameter: `Option<Thrown>`, a `bool`, or a small datatype naming which
  call throws.
- Page state that React keeps in `useState` is a class with `modifies this`
  methods: `Chatroom.ChatRoom`, `Home.HomeView` and `RecipeAdd.StepFields`.
- The JavaScript string and array built-ins the code relies on are modelled
  in `Text` and `Lists`, each with its defining properties: `trim`,
  `toLowerCase`, `includes`, `split`/`join`, `filter(Boolean)`, `parseInt`,
  `filter`, `every`, `flatMap` and `new Set`.

Some behaviour of the code that a reader may not expect:

- "Regenerate" posts intent `generate` with the last message. The server
  classifies that message again, so for a message without "recipe" or
  "meal idea" it chats instead of producing a recipe
  (`Chatroom.RegenerateReclassifies`).
- The chat transcript is read from `sessionStorage` but never written back.
  The model therefore starts every page with an empty transcript.
- Editing a recipe whose tag list is empty stores one empty tag
  (`RecipeUpdate.NoTagsBecomeOneEmptyTag`).
- The recipe edit action does not check for a session of its own. A request
  without one is sent to `/unauthorized`, like any request from a non-owner.
- The chat page does not require a session, and "save" posts the page's
  user id as a form field. Without a session that id is `undefined`, which
  the request encoding sends as the text "undefined". The action stamps
  that text on the recipe as its owner, and the store accepts it
  (`Chatroom.SaveWithoutSessionIsOwnedByUndefined`). This follows from the
  code; it was not observed.

## Model

| member | source | states |
|---|---|---|
| Text.BlankIffAllSpace | app/routes/chatroom.tsx:78 | `!message.trim()` holds exactly when every character of the message is white space |
| Text.TrimUntrimmed | app/routes/recipe-update.tsx:250 | `trim` leaves a string without surrounding white space unchanged |
| Text.ToLowerIdempotent | app/routes/chatroom.tsx:80-82 | lower-casing twice is lower-casing once |
| Text.ContainsToLower | app/routes/home.tsx:41 | a substring stays a substring after both strings are lower-cased |
| Text.Split | app/routes/recipe-add.tsx:44-46 | `split` yields at least one piece, and no piece holds the separator |
| Text.JoinSplit | app/routes/recipe-add.tsx:44-46 | joining the pieces of a split with the same separator gives the string back |
| Text.SplitJoin | app/routes/recipe-update.tsx:44-46 | splitting a joined list of separator-free pieces gives the list back |
| Text.NonEmpty | app/routes/recipe-update.tsx:239-244 | `filter(Boolean)` keeps the non-empty pieces in order, each as often as it occurs: the result is a subsequence shorter by exactly the number of empty pieces |
| Text.NonEmptyKeepsAll | app/routes/recipe-update.tsx:239-244 | `filter(Boolean)` on pieces that are all non-empty changes nothing |
| Text.TrimTrimmed | app/routes/recipe-update.tsx:245-249 | trimming twice is trimming once, and trimming introduces no character |
| Text.TrimEachTrimmed | app/routes/recipe-update.tsx:245-249 | trimming each of some separator-free pieces gives pieces that stay separator-free and are already trimmed |
| Text.ParseInt | app/routes/recipe-add.tsx:47 | `parseInt(s, 10)` is `NaN` exactly when no digit follows the leading white space and optional sign |
| Text.ParseIntDecimal | app/routes/recipe-add.tsx:47 | the decimal numeral of a number parses back to that number |
| Text.ParseIntIgnoresSuffix | app/routes/recipe-add.tsx:47 | anything after the leading digits is ignored |
| Lists.Filter | app/routes/home.tsx:39-48 | `filter` keeps exactly the elements meeting the predicate and never lengthens the list |
| Lists.FilterSubsequence | app/routes/home.tsx:39-48 | `filter` keeps the list's order: the result is a subsequence |
| Lists.FilterFilter | app/routes/home.tsx:39-48 | two filters in a row are one filter by the conjunction |
| Lists.FilterStricter | app/routes/home.tsx:39-48 | a stricter predicate keeps a subsequence of what a weaker one keeps |
| Lists.FilterCount | app/routes/home.tsx:56-57 | `filter` keeps every copy of a passing element and no copy of any other |
| Lists.Dedup | app/routes/home.tsx:50-52 | `[...new Set(xs)]` has the same elements as `xs` and no repeats |
| Lists.DedupFirstOccurrenceOrder | app/routes/home.tsx:50-52 | `new Set` keeps the elements in the order of their first occurrence |
| Lists.FlatMap | app/routes/home.tsx:50-51 | `flatMap` holds exactly the elements of the mapped lists |
| Lists.FirstMatch | app/services/auth.server.tsx:20 | `findOne` finds the first matching record, and finds none only when no record matches |
| Mistral.Prompt | app/services/generateRecipeIdea.ts:20-48 | the prompt is the system message, followed by the cue and the user message exactly when the message is truthy; the user's text appears only as the last message |
| RecipeIdeaService.RecipePromptShape | app/services/generateRecipeIdea.ts:20-48 | the recipe prompt is the system prompt alone, or system prompt, recipe cue and message in that order |
| RecipeIdeaService.GenerateRecipeIdeaResult | app/services/generateRecipeIdea.ts:16-53 | generation returns the first parsed choice, nothing without a choice, and passes a model failure on |
| RecipeIdeaService.RecordFromIdea | app/services/generateRecipeIdea.ts:55-57 | the stored record carries the idea's six fields and the owner, with an empty membership list and no favourite flag or image |
| RecipeIdeaService.SaveRecipe | app/services/generateRecipeIdea.ts:55-59 | a save inserts exactly that record under a fresh id and acknowledges it; a missing owner or a store failure writes nothing and raises |
| MessageService.ChatPromptShape | app/services/generateMessages.ts:8-40 | the chat prompt is the system prompt alone, or system prompt, tips cue and message in that order |
| MessageService.GenerateMessagesResult | app/services/generateMessages.ts:3-45 | the reply is the first choice's content, nothing without a choice, and a model failure is passed on |
| ChatFailure.MarkerMeansCapacity | app/routes/chatroom.tsx:273-280 | a message with either marker anywhere in it gives the capacity message |
| ChatFailure.WithoutMarkers | app/routes/chatroom.tsx:281-284 | a message lacking a character of each marker gives the generic message |
| ChatFailure.LacksCharNotContains | app/routes/chatroom.tsx:274-275 | a string lacking some character of a marker does not contain that marker |
| ChatFailureCases.GenericFailures | app/routes/chatroom.tsx:270-285 | a network error, an error without a message, an unknown intent, a missing message and a missing recipe all give the generic message |
| ChatFailureCases.NoMessageIsGeneric | app/routes/chatroom.tsx:242-246 | the error from lower-casing an absent message gives the generic message |
| ChatFailureCases.NoRecipeIsGeneric | app/routes/chatroom.tsx:264-265 | the error from stamping a user on an absent recipe gives the generic message |
| Chatroom.IsRecipeRequest | app/routes/chatroom.tsx:79-81 | any message in which "recipe" or "meal idea" occurs, in lower or upper case, is a recipe request |
| Chatroom.MarkersSurviveLowering | app/routes/chatroom.tsx:244-246 | lower-casing a message keeps each occurrence of either marker, written in lower or upper case |
| Chatroom.RecipeRequestIgnoresCase | app/routes/chatroom.tsx:244-246 | the recipe-request rule classifies a message and its lower-cased form alike |
| Chatroom.AskModel | app/routes/chatroom.tsx:241-261 | a recipe request under "generate" shows the model's first recipe choice, any other message under either intent shows the model's first chat choice, and a model failure shows the message the failure maps to; a "generate" without a message gives the generic error; a recipe idea, a reply and an error never come together |
| Chatroom.Action | app/routes/chatroom.tsx:236-286 | the model intents leave the store alone and answer as `AskModel`; "save" inserts exactly the stamped record, or writes nothing and answers the message its missing-owner or store error maps to; a missing recipe or any other intent gives the generic error |
| Chatroom.ReplaceLast | app/routes/chatroom.tsx:40-66 | replacing the bot part keeps every earlier turn and the last turn's user text; an empty transcript gets one turn without user text |
| Chatroom.AfterResult | app/routes/chatroom.tsx:39-67 | a result never changes the length of a non-empty transcript, its earlier turns or the user text of its last turn, and changes nothing unless it carries an idea, a reply or an error |
| Chatroom.AfterResultCases | app/routes/chatroom.tsx:39-67 | a result shows a recipe idea first, else a non-blank reply, else an error; a blank reply, a save acknowledgement or an empty result leave the transcript alone |
| Chatroom.ChatRoom.constructor | app/routes/chatroom.tsx:24-25 | the page starts with an empty transcript and an empty input |
| Chatroom.ChatRoom.Type | app/routes/chatroom.tsx:215 | typing replaces the input text and leaves the transcript alone |
| Chatroom.ChatRoom.HandleSubmit | app/routes/chatroom.tsx:76-99 | a blank input does nothing; otherwise one pending turn with the text is appended after all turns, the classified request is sent and the input is cleared |
| Chatroom.ChatRoom.OnData | app/routes/chatroom.tsx:39-73 | a result updates the transcript as the effect does and raises the success alert exactly when the body reports success |
| Chatroom.SubmitRequest | app/routes/chatroom.tsx:79-95 | a submit posts the message with intent "generate" exactly for a recipe request and "generateMessage" otherwise |
| Chatroom.PostedText | app/routes/chatroom.tsx:107-116 | a form field set to `undefined` is posted as the text "undefined"; any other text as it is |
| Chatroom.SaveRequest | app/routes/chatroom.tsx:107-116 | a save posts intent "save", the recipe and the page's user id as text |
| Chatroom.SaveWithoutSessionIsOwnedByUndefined | app/routes/chatroom.tsx:107-116 | a save from a page without a session posts the owner "undefined", which passes the action's owner check |
| Chatroom.RegenerateReclassifies | app/routes/chatroom.tsx:100-105 | the action answers the request `RegenerateRequest` posts exactly as it answers `SubmitRequest` for the same text; for a non-recipe message it never yields a recipe idea |
| Chatroom.SubmitThenAnswer | app/routes/chatroom.tsx:76-99 | one submit and its answer leave earlier turns alone and end with one turn holding the text; it shows a recipe only for a recipe request, a reply only for any other message, an error only as a fixed message; and it does show the model's first recipe idea, its first non-blank reply, or the message a model failure maps to |
| Home.Loader | app/routes/home.tsx:17-30 | without a session the page redirects to /signin; otherwise it lists exactly the recipes owned by the session user |
| Home.LoaderKeepsStoreOrder | app/routes/home.tsx:26-27 | the listed recipes keep the store's order and hold each of the user's records exactly as often as the store does, and nothing else |
| Home.FilteredRecipes | app/routes/home.tsx:39-48 | the three chained filters are one filter by title match, selected tags and the favourites switch together; a recipe is shown exactly when it is listed and meets all three, in list order |
| Home.NoCriteriaShowsAll | app/routes/home.tsx:34-48 | with an empty search, no selected tag and the switch off, every recipe is shown |
| Home.MoreTagsShowFewer | app/routes/home.tsx:43-47 | selecting one more tag never shows a recipe that was hidden |
| Home.UniqueTags | app/routes/home.tsx:50-52 | the offered tags are exactly the tags of the listed recipes, without repeats, in order of first appearance |
| Home.Toggled | app/routes/home.tsx:54-60 | toggling a selected tag removes it everywhere and keeps every copy of the others, in order; toggling an unselected tag appends it |
| Home.ToggleTwice | app/routes/home.tsx:54-60 | toggling an unselected tag twice restores the selection |
| Home.ToggledNoDup | app/routes/home.tsx:54-60 | toggling keeps a selection free of repeats |
| Home.HomeView.constructor | app/routes/home.tsx:34-37 | the page starts with an empty search, no selected tag and the favourites switch off |
| Home.HomeView.Search | app/routes/home.tsx:92 | typing sets the search text and leaves the other filters alone |
| Home.HomeView.FlipFavorites | app/routes/home.tsx:118 | the switch flips the favourites filter and leaves the other filters alone |
| Home.HomeView.HandleTagChange | app/routes/home.tsx:54-60 | the selection is toggled, the other filters stay, and selecting a new tag shows a subsequence of what was shown |
| RecipeAdd.StepFields.constructor | app/routes/recipe-add.tsx:68 | the form starts with one empty step |
| RecipeAdd.StepFields.HandleStepChange | app/routes/recipe-add.tsx:75-79 | editing a step sets that step only, and the count stays |
| RecipeAdd.StepFields.AddStepField | app/routes/recipe-add.tsx:81-83 | one empty step is added after the others |
| RecipeAdd.StepFields.RemoveStepField | app/routes/recipe-add.tsx:85-89 | with more than one step the chosen step goes and the rest keep their order; the last step is never removed |
| RecipeAdd.NewRecipe | app/routes/recipe-add.tsx:41-51 | the record exists exactly when the cooking time parses; it carries the posted fields, the owner, the parsed minutes, an empty membership list, and favourite exactly for a ticked box |
| RecipeAdd.NewRecipeSplitsOnComma | app/routes/recipe-add.tsx:44-46 | the stored ingredients and tags join back with "," to the posted text, and no piece holds a comma |
| RecipeAdd.NewRecipeMinutes | app/routes/recipe-add.tsx:47 | a cooking time typed as a plain number is stored as that number |
| RecipeAdd.Action | app/routes/recipe-add.tsx:17-62 | the page (`Loader`) and the action both need a session, and without one nothing is written; an unparseable time or a store failure answers 500 and writes nothing; otherwise exactly the new record is inserted |
| RecipeUpdate.LoaderAdmitsEditors | app/routes/recipe-update.tsx:15-31 | the edit page loads for exactly the requests the action lets save, except an empty user id; without a session the result does not depend on the store |
| RecipeUpdate.PageForm | app/routes/recipe-update.tsx:41-46 | the form carries title, description and image (an unset image as empty text), and each text area splits back into its list when the list is non-empty and separator-free |
| RecipeUpdate.ParseLines | app/routes/recipe-update.tsx:239-244 | the parsed lines are the text's lines in order with exactly the empty ones dropped; none holds a line break |
| RecipeUpdate.ParseTags | app/routes/recipe-update.tsx:245-249 | the tags are the trimmed comma pieces, one per piece, empty ones kept; no tag holds a comma or surrounding white space |
| RecipeUpdate.LinesRoundTrip | app/routes/recipe-update.tsx:44-45 | non-empty lines without line breaks survive the text area and parse back unchanged |
| RecipeUpdate.TagsRoundTrip | app/routes/recipe-update.tsx:46 | a non-empty list of comma-free, trimmed tags survives the input and parses back unchanged |
| RecipeUpdate.NoTagsBecomeOneEmptyTag | app/routes/recipe-update.tsx:46 | a recipe without tags comes back with one empty tag |
| RecipeUpdate.Updated | app/routes/recipe-update.tsx:235-250 | the six posted fields replace the stored ones; time, favourite flag, memberships and owner stay |
| RecipeUpdate.UnchangedFormKeepsRecipe | app/routes/recipe-update.tsx:41-46 | saving the untouched form gives back a recipe whose lists the form can carry |
| RecipeUpdate.Action | app/routes/recipe-update.tsx:220-253 | a missing recipe answers 404, a non-owner goes to /unauthorized, and only the owner's request writes the update |
| RecipeDestroy.Action | app/routes/recipe-destroy.tsx:6-42 | the page (`Loader`) needs a session; only the owner's request deletes the recipe, keeping every other recipe as it was; every other outcome (no session, missing record, non-owner, store failure) writes nothing |
| AddToCollection.WithMembershipSpec | app/routes/add-to-collection.ts:22-30 | afterwards the id is listed, earlier memberships keep their place, the list grows by one for a new id, and nothing else changes |
| AddToCollection.WithMembershipIdempotent | app/routes/add-to-collection.ts:25 | adding the same collection twice is adding it once |
| AddToCollection.Action | app/routes/add-to-collection.ts:6-33 | a missing id answers 400 and a missing recipe or collection 404, writing nothing; otherwise only that recipe's memberships change |
| RemoveFromCollection.WithoutMembership | app/routes/remove-from-collection.ts:21-26 | the id leaves the list, every other membership stays, the list is always set, and nothing else changes |
| RemoveFromCollection.WithoutMembershipKeepsOrder | app/routes/remove-from-collection.ts:24-26 | the remaining memberships keep their order, and a list without the id is unchanged |
| RemoveFromCollection.WithoutMembershipIdempotent | app/routes/remove-from-collection.ts:24-26 | removing twice is removing once |
| RemoveFromCollection.Action | app/routes/remove-from-collection.ts:6-30 | a missing id answers 400 and a missing recipe 404, writing nothing; otherwise only that recipe's memberships change |
| CollectionDestroy.Pulled | app/routes/collection-destroy.tsx:11-14 | `$pull` removes the id from a recipe that lists it and keeps its other memberships; other recipes are untouched |
| CollectionDestroy.PullEverywhereSpec | app/routes/collection-destroy.tsx:11-14 | afterwards no recipe lists the collection, recipes that did not list it are untouched, and the others keep every copy of their other memberships, in order |
| CollectionDestroy.Action | app/routes/collection-destroy.tsx:6-22 | the pull comes before the delete, and success removes exactly that collection; a failing pull writes nothing, a failing delete keeps the pull; both answer 500 |
| ProfileUpdate.Loader | app/routes/profile-update.tsx:14-29 | without a session the page redirects to /signin and without a stored user it answers 404; a signed-in, stored user is always loaded, as that user's record without the password hash |
| ProfileUpdate.UpdatedAsWritten | app/routes/profile-update.tsx:198-203 | as written, name, image and password change and the stored mail stays |
| ProfileUpdate.EmailChangeIsLost | app/routes/profile-update.tsx:200 | as written, a user who enters a new address keeps the old one |
| ProfileUpdate.Updated | app/routes/profile-update.tsx:198-203 | as intended, name, mail and image take the form's values, and the password follows the hashing rule |
| ProfileUpdate.BlankPasswordKeepsHash | app/routes/profile-update.tsx:192-195 | saving without a new password keeps the stored hash, and saving again changes nothing more |
| ProfileUpdate.Action | app/routes/profile-update.tsx:174-206 | without a session or user nothing is written; otherwise exactly that user's record is updated, with the intended `Updated` (the form's email is written to mail) rather than the code as written (see Findings) |
| Auth.ValidationOrder | app/services/auth.server.tsx:37-44 | the mail is checked before the password, and a mail of white space only is rejected |
| Auth.Authenticate | app/services/auth.server.tsx:32-50 | a success names a stored user whose mail is exactly the submitted text and whose hash matches the submitted password; a store failure on usable fields is passed on |
| Auth.AuthenticateSucceeds | app/services/auth.server.tsx:32-50 | sign-in succeeds exactly for usable fields, a working store and a matching user, and the id is that of a user with that mail |
| Auth.Session.constructor | app/services/auth.server.tsx:56 | the session starts with the cookie's user id |
| Auth.Action | app/services/auth.server.tsx:53-78 | a success stores the user id in the session and redirects to /profile; a failure leaves the session alone and answers the JSON error: 400 with an `Error`'s message, 500 with a fixed message for anything else |

## Left out

- Rendering (JSX, styling, navigation buttons) and the pages that only show records (recipe details, collection list, profile view, sign-up form) are outside this model.
- The Mistral API call is a function parameter. The content of the system prompts is a constant, and the model's answers are not modelled.
- MongoDB is reduced to its records. Ids are taken to be canonical map keys. A malformed ObjectId, which makes `findById` throw a cast error, is not modelled.
- `bcrypt.hash` and `bcrypt.compare` are function parameters. Salting and cost are not modelled.
- Cookie sessions are reduced to the session's user id. Signing, expiry and `commitSession` are not modelled.
- The chat page's transcript is read from `sessionStorage`, but nothing writes it. The model omits the restore, so `Chatroom.ChatRoom` starts empty.
- `Chatroom.ChatRoom.OnData` takes the action's answer as the next result. The page's fetcher may also see answers out of order, which is not modelled.
- `Text.ToLower` lower-cases ASCII letters only. JavaScript's full Unicode case mapping is not modelled.
- Browsers send text area line breaks as CRLF. The model assumes the text reaches the action as typed, with LF.
- `CollectionDestroy.Action` treats `updateMany` as all-or-nothing. A pull that fails halfway through the recipes is not modelled.
- Form fields that the pages always send are modelled as strings, not as possibly-missing values. The chat action's `message` and `recipe`, and the profile `password`, are optional, as in the code.
- `Chatroom.Action` takes the posted recipe as already decoded from its JSON text. Malformed JSON, which makes `JSON.parse` throw and so gives the generic error, is not modelled.
- `RecipeAdd.NewRecipe`: the only schema rule that can reject the record on this path is the number cast of an unparseable `estimatedTime`, which `NewRecipe` models as no record. The `fault` parameter of `RecipeAdd.Action` stands for a failing insert, such as a lost connection, and not for a schema rule.
- `RecipeUpdate.Updated`: the update writes the posted `image` even when it is empty, as the code does. Mongoose's own casting of that value is not modelled.
- ProfileUpdate.Action: writes the form's email into `mail`, as intended. The code as written keeps the stored mail; that behaviour is `ProfileUpdate.UpdatedAsWritten` (see Findings).
- AddToCollection.Action, RemoveFromCollection.Action, RecipeUpdate.Action, ProfileUpdate.Action, RecipeUpdate.Loader and ProfileUpdate.Loader: the code does not catch a failing store call in these, so the error goes to the route's error boundary with nothing written. They take no fault parameter, and that path is not modelled. In particular, `RecipeUpdate.Loader` looks the recipe up before it reads the session, so a failing `findById` wins over the redirect to /signin.
- Integer overflow and floating point: `estimatedTime` is an unbounded integer. `parseInt` on numerals beyond 2^53 and fractional input are not modelled.

## Findings

| source | as written | input that shows it | evidently intended | confidence | as-written member | corrected member |
|---|---|---|---|---|---|---|
| app/routes/profile-update.tsx:200 | the update sets `email`, but the User schema's path is `mail` (app/models/User.ts:16-19), so strict mode drops the field and the stored address never changes | a signed-in user with mail "a@x" submits the form with email "b@x"; the stored mail stays "a@x" | the address entered in the form replaces the stored `mail` | not executed; relies on Mongoose's default strict mode | ProfileUpdate.EmailChangeIsLost | ProfileUpdate.Updated |

=== FILE: add_to_collection.dfy ===
/** app/routes/add-to-collection.ts: adding a recipe to a collection by
    recording the collection's id in the recipe's membership list. */
module AddToCollection {
  import opened Common
  import opened Store

  /** The recipe after the membership step: an id already listed leaves
      the record as it was; any other id is appended to the list, an
      unset list counting as empty. */
  function WithMembership(r: Recipe, collectionId: Id): (u: Recipe)
    ensures collectionId in Memberships(r) ==> u == r
    ensures collectionId !in Memberships(r) ==>
              u == r.(collections := Some(Memberships(r) + [collectionId]))
  {
    if collectionId in Memberships(r) then r
    else r.(collections := Some(Memberships(r) + [collectionId]))
  }

  /** After the step the id is listed exactly once if it was not listed
      before, the earlier memberships keep their order in front of it, and
      nothing but the membership list changes. */
  lemma WithMembershipSpec(r: Recipe, collectionId: Id)
    ensures collectionId in Memberships(WithMembership(r, collectionId))
    ensures Memberships(WithMembership(r, collectionId))[..|Memberships(r)|] == Memberships(r)
    ensures collectionId !in Memberships(r) ==>
              |Memberships(WithMembership(r, collectionId))| == |Memberships(r)| + 1
    ensures WithMembership(r, collectionId).(collections := r.collections) == r
  {
  }

  /** Adding the same collection twice is adding it once. */
  lemma WithMembershipIdempotent(r: Recipe, collectionId: Id)
    ensures WithMembership(WithMembership(r, collectionId), collectionId) == WithMembership(r, collectionId)
  {
    assert collectionId in Memberships(WithMembership(r, collectionId));
  }

  const IdRequired: string := "Collection ID is required"
  const NotFound: string := "Recipe or Collection not found"

  /** The action for recipe `id` and the posted `collectionId`. It checks
      neither a session nor ownership. */
  method Action(db: Database, id: Id, collectionId: Option<Id>) returns (reply: Reply)
    modifies db
    ensures db.collections == old(db.collections) && db.users == old(db.users)
    ensures !Truthy(collectionId) ==> reply == Data(400, IdRequired) && db.recipes == old(db.recipes)
    ensures Truthy(collectionId) && (id !in old(db.recipes) || collectionId.value !in old(db.collections)) ==>
              reply == Data(404, NotFound) && db.recipes == old(db.recipes)
    ensures Truthy(collectionId) && id in old(db.recipes) && collectionId.value in old(db.collections) ==>
              && reply == Redirect("/recipes/" + id)
              && db.recipes == old(db.recipes)[id := WithMembership(old(db.recipes)[id], collectionId.value)]
  {
    if !Truthy(collectionId) {
      return Data(400, IdRequired);
    }
    if id !in db.recipes || collectionId.value !in db.collections {
      return Data(404, NotFound);
    }
    var recipe := db.recipes[id];
    if collectionId.value !in Memberships(recipe) {
      var list := Memberships(recipe);
      list := list + [collectionId.value];
      db.recipes := db.recipes[id := recipe.(collections := Some(list))];
    }
    reply := Redirect("/recipes/" + id);
  }
}

=== FILE: auth.dfy ===
/** app/services/auth.server.tsx: signing in with mail and password. The
    form strategy validates the two fields in order, looks the user up by
    mail and compares the password with the stored hash; the action turns
    the outcome into a session and a redirect, or a JSON error.
    `matches(password, hash)` stands for `bcrypt.compare`. */
module Auth {
  import opened Common
  import opened Text
  import opened Store

  /** A form entry: text, or an uploaded file. */
  datatype FormValue = Text(text: string) | Upload

  /** `!v || typeof v !== "string" || !v.trim()` fails exactly for an
      absent entry, a file, and text that is empty or only white space. */
  predicate Usable(v: Option<FormValue>) {
    v.Some? && v.value.Text? && !IsBlank(v.value.text)
  }

  /** What the sign-in attempt throws: an `Error` with its message, or some
      other value. */
  datatype Failure = ErrorThrown(message: string) | OtherThrown

  /** How authentication ends. */
  datatype Attempt = Authenticated(userId: Id) | Rejected(failure: Failure)

  const EmailInvalid: string := "Email is required and must be a string"
  const PasswordInvalid: string := "Password is required and must be a string"
  const NoUser: string := "No user found with this email."
  const BadPassword: string := "Invalid password."
  const UnknownError: string := "An unknown error occurred"

  /** `verifyUser`: the first user with exactly this mail, whose stored
      hash must match the password. `fault` is what the lookup throws when
      the store fails. */
  function VerifyUser(users: seq<User>, mail: string, password: string,
                      matches: (string, string) -> bool, fault: Option<Failure>): (a: Attempt)
    ensures fault.Some? ==> a == Rejected(fault.value)
    ensures fault.None? && UserWithMail(users, mail).None? ==> a == Rejected(ErrorThrown(NoUser))
    ensures a.Authenticated? <==>
              fault.None? && UserWithMail(users, mail).Some? &&
              matches(password, users[UserWithMail(users, mail).value].password)
    ensures a.Authenticated? ==> a.userId == users[UserWithMail(users, mail).value].id
    ensures fault.None? && UserWithMail(users, mail).Some? && a.Rejected? ==> a == Rejected(ErrorThrown(BadPassword))
  {
    if fault.Some? then Rejected(fault.value)
    else match UserWithMail(users, mail)
      case None => Rejected(ErrorThrown(NoUser))
      case Some(i) =>
        if !matches(password, users[i].password) then Rejected(ErrorThrown(BadPassword))
        else Authenticated(users[i].id)
  }

  /** The form strategy: mail checked first, then password, then
      `verifyUser` with the untrimmed values. A success names a stored user
      whose mail is exactly the submitted text and whose hash matches the
      submitted password; a store failure on usable fields is passed on. */
  function Authenticate(users: seq<User>, mail: Option<FormValue>, password: Option<FormValue>,
                        matches: (string, string) -> bool, fault: Option<Failure>): (a: Attempt)
    ensures a.Authenticated? ==>
              && Usable(mail) && Usable(password) && fault.None?
              && exists i :: 0 <= i < |users| && users[i].id == a.userId && users[i].mail == mail.value.text
                             && matches(password.value.text, users[i].password)
    ensures Usable(mail) && Usable(password) && fault.Some? ==> a == Rejected(fault.value)
  {
    if !Usable(mail) then Rejected(ErrorThrown(EmailInvalid))
    else if !Usable(password) then Rejected(ErrorThrown(PasswordInvalid))
    else
      var a := VerifyUser(users, mail.value.text, password.value.text, matches, fault);
      assert a.Authenticated? ==>
        var i := UserWithMail(users, mail.value.text).value;
        users[i].id == a.userId && users[i].mail == mail.value.text;
      a
  }

  /** The checks come in order: an unusable mail is reported whatever the
      password, and an unusable password only for a usable mail; neither
      reaches the store. */
  lemma ValidationOrder(users: seq<User>, mail: Option<FormValue>, password: Option<FormValue>,
                        matches: (string, string) -> bool, fault: Option<Failure>)
    ensures !Usable(mail) ==> Authenticate(users, mail, password, matches, fault) == Rejected(ErrorThrown(EmailInvalid))
    ensures Usable(mail) && !Usable(password) ==>
              Authenticate(users, mail, password, matches, fault) == Rejected(ErrorThrown(PasswordInvalid))
    ensures mail.Some? && mail.value.Text? && (forall i :: 0 <= i < |mail.value.text| ==> IsSpace(mail.value.text[i])) ==>
              Authenticate(users, mail, password, matches, fault) == Rejected(ErrorThrown(EmailInvalid))
  {
    if mail.Some? && mail.value.Text? {
      BlankIffAllSpace(mail.value.text);
    }
  }

  /** Sign-in succeeds exactly for usable fields, a working store, and a
      user found by that mail whose hash matches; the id is that user's. */
  lemma AuthenticateSucceeds(users: seq<User>, mail: Option<FormValue>, password: Option<FormValue>,
                             matches: (string, string) -> bool, fault: Option<Failure>)
    ensures var a := Authenticate(users, mail, password, matches, fault);
      a.Authenticated? <==>
        && Usable(mail) && Usable(password) && fault.None?
        && UserWithMail(users, mail.value.text).Some?
        && matches(password.value.text, users[UserWithMail(users, mail.value.text).value].password)
    ensures var a := Authenticate(users, mail, password, matches, fault);
      a.Authenticated? ==>
        exists i :: 0 <= i < |users| && users[i].id == a.userId && users[i].mail == mail.value.text
  {
    var a := Authenticate(users, mail, password, matches, fault);
    if a.Authenticated? {
      var i := UserWithMail(users, mail.value.text).value;
      assert users[i].id == a.userId && users[i].mail == mail.value.text;
    }
  }

  /** The cookie session of the request. */
  class Session {
    var authUserId: Option<Id>

    constructor (authUserId: Option<Id>)
      ensures this.authUserId == authUserId
    {
      this.authUserId := authUserId;
    }
  }

  /** The reply for a failed attempt: an `Error` becomes 400 with its
      message, anything else 500 with a fixed message. */
  function FailureReply(f: Failure): (r: Reply)
    ensures f.ErrorThrown? ==> r == JsonError(400, f.message)
    ensures f.OtherThrown? ==> r == JsonError(500, UnknownError)
  {
    match f
    case ErrorThrown(m) => JsonError(400, m)
    case OtherThrown => JsonError(500, UnknownError)
  }

  /** The sign-in action: on success the session holds the user's id and
      the reply redirects to /profile; on failure the session is left as
      it was. */
  method Action(session: Session, users: seq<User>, mail: Option<FormValue>, password: Option<FormValue>,
                matches: (string, string) -> bool, fault: Option<Failure>) returns (reply: Reply)
    modifies session
    ensures var a := Authenticate(users, mail, password, matches, fault);
      && (a.Authenticated? ==> session.authUserId == Some(a.userId) && reply == Redirect("/profile"))
      && (a.Rejected? ==> session.authUserId == old(session.authUserId) && reply == FailureReply(a.failure))
  {
    var attempt := Authenticate(users, mail, password, matches, fault);
    match attempt
    case Authenticated(id) =>
      session.authUserId := Some(id);
      reply := Redirect("/profile");
    case Rejected(f) =>
      reply := FailureReply(f);
  }
}

=== FILE: chat_failure.dfy ===
/** The catch block shared by every branch of the chat page's server
    action (app/routes/chatroom.tsx): which of the two fixed messages a
    thrown error becomes. */
module ChatFailure {
  import opened Common
  import opened Text

  const CapacityMessage: string := "The AI service is at capacity. Please try again later."
  const GenericMessage: string := "An unexpected error occurred. Please try again."

  /** The catch block: a thrown value whose message mentions "Status 429"
      or "capacity exceeded" becomes the capacity message; everything else,
      including a value without a message, becomes the generic one. */
  function FailureMessage(thrown: Thrown): (text: string)
    ensures text == CapacityMessage || text == GenericMessage
    ensures text == CapacityMessage <==>
      thrown.message.Some? &&
      (Contains(thrown.message.value, "Status 429") || Contains(thrown.message.value, "capacity exceeded"))
  {
    if thrown.message.Some? &&
       (Contains(thrown.message.value, "Status 429") || Contains(thrown.message.value, "capacity exceeded"))
    then CapacityMessage
    else GenericMessage
  }

  /** The error `throw new Error("Unexpected action")` raises for an intent
      the action does not know. */
  const UnexpectedAction: Thrown := Thrown(Some("Unexpected action"))

  /** The error `null.toLowerCase()` raises when a "generate" request has
      no message field. */
  const NoMessage: Thrown := Thrown(Some("Cannot read " + "properties of " + "null (reading " + "'toLowerCase')"))

  /** The error `recipeData.user = ...` raises when a "save" request has no
      recipe field (`JSON.parse` then yields `null`). */
  const NoRecipe: Thrown := Thrown(Some("Cannot set " + "properties of " + "null (setting 'user')"))

  /** A message mentioning either marker anywhere maps to the capacity
      message. */
  lemma MarkerMeansCapacity(before: string, after: string)
    ensures FailureMessage(Thrown(Some(before + "Status 429" + after))) == CapacityMessage
    ensures FailureMessage(Thrown(Some(before + "capacity exceeded" + after))) == CapacityMessage
  {
    var m1 := before + "Status 429" + after;
    assert m1[|before|..|before| + 10] == "Status 429";
    assert OccursAt(m1, "Status 429", |before|);
    var m2 := before + "capacity exceeded" + after;
    assert m2[|before|..|before| + 17] == "capacity exceeded";
    assert OccursAt(m2, "capacity exceeded", |before|);
  }

  /** A message that lacks a character of each marker ("4" of "Status 429",
      "y" of "capacity exceeded") maps to the generic message. */
  lemma {:induction false} WithoutMarkers(m: string)
    requires '4' !in m && 'y' !in m
    ensures FailureMessage(Thrown(Some(m))) == GenericMessage
  {
    LacksCharNotContains(m, "Status 429", '4');
    LacksCharNotContains(m, "capacity exceeded", 'y');
  }

  /** A string lacking a character of `t` does not contain `t`. */
  lemma LacksCharNotContains(s: string, t: string, c: char)
    requires c in t && c !in s
    ensures !Contains(s, t)
  {
    var k :| 0 <= k < |t| && t[k] == c;
    forall i | 0 <= i <= |s| ensures !OccursAt(s, t, i) {
      if i + |t| <= |s| {
        assert s[i..i + |t|][k] == s[i + k];
      }
    }
  }
}

/** The failure mapping on the concrete errors the chat page's action can
    meet. */
module ChatFailureCases {
  import opened Common
  import opened ChatFailure

  /** A plain transport failure, a thrown value without a message, and the
      errors the action itself raises all map to the generic message. */
  lemma GenericFailures()
    ensures FailureMessage(Thrown(Some("network down"))) == GenericMessage
    ensures FailureMessage(Thrown(None)) == GenericMessage
    ensures FailureMessage(UnexpectedAction) == GenericMessage
    ensures FailureMessage(NoMessage) == GenericMessage
    ensures FailureMessage(NoRecipe) == GenericMessage
  {
    WithoutMarkers("network down");
    WithoutMarkers(UnexpectedAction.message.value);
    NoMessageIsGeneric();
    NoRecipeIsGeneric();
  }

  lemma NoMessageIsGeneric()
    ensures FailureMessage(NoMessage) == GenericMessage
  {
    var a, b, c, d := "Cannot read ", "properties of ", "null (reading ", "'toLowerCase')";
    assert '4' !in a && 'y' !in a;
    assert '4' !in b && 'y' !in b;
    assert '4' !in c && 'y' !in c;
    assert '4' !in d && 'y' !in d;
    WithoutMarkers(a + b + c + d);
  }

  lemma NoRecipeIsGeneric()
    ensures FailureMessage(NoRecipe) == GenericMessage
  {
    var a, b, c := "Cannot set ", "properties of ", "null (setting 'user')";
    assert '4' !in a && 'y' !in a;
    assert '4' !in b && 'y' !in b;
    assert '4' !in c && 'y' !in c;
    WithoutMarkers(a + b + c);
  }
}

=== FILE: chatroom.dfy ===
/** app/routes/chatroom.tsx: the chat page. The component keeps the
    transcript and the input text as state; a submit appends a pending turn,
    and each result from the server action replaces the bot part of the last
    turn. The server action classifies the message again, asks one of the
    two services (or saves a recipe) and maps any failure to one of two
    fixed messages. */
module Chatroom {
  import opened Common
  import opened Text
  import opened Store
  import opened Mistral
  import opened RecipeIdeaService
  import opened MessageService
  import opened ChatFailure
  import opened ChatFailureCases

  // ---------------------------------------------------------------------
  // Intent

  /** `message.toLowerCase().includes("recipe") ||
      message.toLowerCase().includes("meal idea")`; the page and the
      server action use this same rule. Any message in which "recipe" or
      "meal idea" occurs, in lower or upper case, is a recipe request. */
  predicate IsRecipeRequest(message: string): (b: bool)
    ensures Contains(message, "recipe") || Contains(message, "meal idea") ==> b
    ensures Contains(message, "RECIPE") || Contains(message, "MEAL IDEA") ==> b
  {
    MarkersSurviveLowering(message);
    Contains(ToLower(message), "recipe") || Contains(ToLower(message), "meal idea")
  }

  /** Lower-casing keeps every occurrence of the two markers, written in
      lower or in upper case, as an occurrence of the lower-case marker. */
  lemma MarkersSurviveLowering(message: string)
    ensures Contains(message, "recipe") || Contains(message, "RECIPE") ==> Contains(ToLower(message), "recipe")
    ensures Contains(message, "meal idea") || Contains(message, "MEAL IDEA") ==> Contains(ToLower(message), "meal idea")
  {
    assert ToLower("recipe") == "recipe" && ToLower("RECIPE") == "recipe";
    assert ToLower("meal idea") == "meal idea" && ToLower("MEAL IDEA") == "meal idea";
    if Contains(message, "recipe") { ContainsToLower(message, "recipe"); }
    if Contains(message, "meal idea") { ContainsToLower(message, "meal idea"); }
    if Contains(message, "RECIPE") { ContainsToLower(message, "RECIPE"); }
    if Contains(message, "MEAL IDEA") { ContainsToLower(message, "MEAL IDEA"); }
  }

  /** The rule ignores case: a message and its lower-cased form are
      classified alike. */
  lemma {:induction false} RecipeRequestIgnoresCase(message: string)
    ensures IsRecipeRequest(ToLower(message)) == IsRecipeRequest(message)
  {
    ToLowerIdempotent(message);
  }

  // ---------------------------------------------------------------------
  // Requests and responses

  /** The fields `fetcher.submit` posts to the action. */
  datatype Submission = Submission(
    intent: string,
    message: Option<string>,
    recipe: Option<RecipeIdea>,
    user: Option<Id>)

  /** The JSON body the action answers with; an unset field is absent. */
  datatype ActionData = ActionData(
    recipeIdea: Option<RecipeIdea>,
    messageResponse: Option<string>,
    error: Option<string>,
    success: bool,
    message: Option<string>)

  function RecipeIdeaBody(idea: Option<RecipeIdea>): ActionData {
    ActionData(idea, None, None, false, None)
  }

  function MessageBody(text: Option<string>): ActionData {
    ActionData(None, text, None, false, None)
  }

  function ErrorBody(error: string): ActionData {
    ActionData(None, None, Some(error), false, None)
  }

  function SavedBody(ack: SaveAck): ActionData {
    ActionData(None, None, None, ack.success, Some(ack.message))
  }

  /** The model side of the action, for the two intents that ask the
      model: "generate" classifies the message again and takes the recipe
      path only for a recipe request, "generateMessage" always chats. */
  function AskModel(intent: string, message: Option<string>,
                    recipeModel: seq<Message> -> Completion<RecipeIdea>,
                    chatModel: seq<Message> -> Completion<string>): (data: ActionData)
    requires intent == "generate" || intent == "generateMessage"
    ensures data.recipeIdea.Some? ==>
              intent == "generate" && message.Some? && IsRecipeRequest(message.value)
              && data.messageResponse.None? && data.error.None?
    ensures data.messageResponse.Some? ==>
              (intent == "generateMessage" || (message.Some? && !IsRecipeRequest(message.value)))
              && data.recipeIdea.None? && data.error.None?
    ensures data.error.Some? ==>
              (data.error.value == CapacityMessage || data.error.value == GenericMessage)
              && data.recipeIdea.None? && data.messageResponse.None?
    ensures !data.success && data.message.None?
    ensures intent == "generate" && message.None? ==> data == ErrorBody(GenericMessage)
    ensures intent == "generate" && message.Some? && IsRecipeRequest(message.value) ==>
              match recipeModel(RecipeMessages(message))
              case Answered(cs) => data == RecipeIdeaBody(FirstChoice(cs))
              case Failed(t) => data == ErrorBody(FailureMessage(t))
    ensures intent == "generateMessage" || (message.Some? && !IsRecipeRequest(message.value)) ==>
              match chatModel(ChatMessages(message))
              case Answered(cs) => data == MessageBody(FirstChoice(cs))
              case Failed(t) => data == ErrorBody(FailureMessage(t))
  {
    if intent == "generate" && message.None? then
      NoMessageIsGeneric();
      ErrorBody(FailureMessage(NoMessage))
    else if intent == "generate" && IsRecipeRequest(message.value) then
      match GenerateRecipeIdea(message, recipeModel)
      case Returned(idea) => RecipeIdeaBody(idea)
      case Raised(t) => ErrorBody(FailureMessage(t))
    else
      match GenerateMessages(message, chatModel)
      case Returned(text) => MessageBody(text)
      case Raised(t) => ErrorBody(FailureMessage(t))
  }

  /** The action (the route's POST handler). `freshId` is the id the store
      gives a new record and `fault` the error it raises, if any. */
  method Action(db: Database, form: Submission,
                recipeModel: seq<Message> -> Completion<RecipeIdea>,
                chatModel: seq<Message> -> Completion<string>,
                freshId: Id, fault: Option<Thrown>)
    returns (data: ActionData)
    requires freshId !in db.recipes
    modifies db
    ensures db.collections == old(db.collections) && db.users == old(db.users)
    ensures form.intent == "generate" || form.intent == "generateMessage" ==>
              data == AskModel(form.intent, form.message, recipeModel, chatModel) && db.recipes == old(db.recipes)
    ensures form.intent == "save" && form.recipe.None? ==>
              data == ErrorBody(GenericMessage) && db.recipes == old(db.recipes)
    ensures form.intent == "save" && form.recipe.Some? && Truthy(form.user) && fault.None? ==>
              data == SavedBody(SaveAck(true, SavedMessage))
              && db.recipes == old(db.recipes)[freshId := RecordFromIdea(form.recipe.value, form.user.value)]
    ensures form.intent == "save" && form.recipe.Some? && !Truthy(form.user) ==>
              data == ErrorBody(FailureMessage(MissingUser)) && db.recipes == old(db.recipes)
    ensures form.intent == "save" && form.recipe.Some? && Truthy(form.user) && fault.Some? ==>
              data == ErrorBody(FailureMessage(fault.value)) && db.recipes == old(db.recipes)
    ensures form.intent !in {"generate", "generateMessage", "save"} ==>
              data == ErrorBody(GenericMessage) && db.recipes == old(db.recipes)
  {
    if form.intent == "generate" || form.intent == "generateMessage" {
      data := AskModel(form.intent, form.message, recipeModel, chatModel);
    } else if form.intent == "save" {
      if form.recipe.None? {
        GenericFailures();
        data := ErrorBody(FailureMessage(NoRecipe));
      } else {
        var outcome := SaveRecipe(db, form.recipe.value, form.user, freshId, fault);
        match outcome
        case Returned(ack) => data := SavedBody(ack);
        case Raised(t) => data := ErrorBody(FailureMessage(t));
      }
    } else {
      GenericFailures();
      data := ErrorBody(FailureMessage(UnexpectedAction));
    }
  }

  // ---------------------------------------------------------------------
  // Transcript

  /** What the page shows as the assistant's part of a turn. */
  datatype Bot = Loading | Failure(error: string) | Reply(text: string) | Idea(idea: RecipeIdea)

  /** One turn; `user` is unset only in the turn that replacing the last
      turn of an empty transcript creates. */
  datatype Turn = Turn(user: Option<string>, bot: Bot)

  /** `[...prev.slice(0, -1), { user: prev[prev.length - 1]?.user, bot }]`. */
  function ReplaceLast(log: seq<Turn>, bot: Bot): (r: seq<Turn>)
    ensures |log| > 0 ==> |r| == |log| && r[..|log| - 1] == log[..|log| - 1]
    ensures |log| > 0 ==> r[|log| - 1] == Turn(log[|log| - 1].user, bot)
    ensures |log| == 0 ==> r == [Turn(None, bot)]
  {
    if |log| == 0 then [Turn(None, bot)]
    else log[..|log| - 1] + [Turn(log[|log| - 1].user, bot)]
  }

  /** The effect that runs when `fetcher.data` changes: a recipe idea first,
      then a truthy message reply (ignored when it is only white space),
      then a truthy error; anything else (a save acknowledgement, an empty
      generation) leaves the transcript as it is. On a non-empty transcript
      at most the last turn's bot part changes: the length, every earlier
      turn and the last turn's user text stay. */
  function AfterResult(log: seq<Turn>, data: ActionData): (r: seq<Turn>)
    ensures |log| > 0 ==> |r| == |log| && r[..|log| - 1] == log[..|log| - 1]
    ensures |log| > 0 ==> r[|log| - 1].user == log[|log| - 1].user
    ensures r != log ==> data.recipeIdea.Some? || Truthy(data.messageResponse) || Truthy(data.error)
  {
    if data.recipeIdea.Some? then ReplaceLast(log, Idea(data.recipeIdea.value))
    else if Truthy(data.messageResponse) then
      if IsBlank(data.messageResponse.value) then log
      else ReplaceLast(log, Reply(data.messageResponse.value))
    else if Truthy(data.error) then ReplaceLast(log, Failure(data.error.value))
    else log
  }

  /** What one result does to a transcript, case by case, in the order the
      effect tests the fields. */
  lemma {:induction false} AfterResultCases(log: seq<Turn>, data: ActionData)
    ensures data.recipeIdea.Some? ==>
      AfterResult(log, data) == ReplaceLast(log, Idea(data.recipeIdea.value))
    ensures data.recipeIdea.None? && data.messageResponse.Some? && !IsBlank(data.messageResponse.value) ==>
      AfterResult(log, data) == ReplaceLast(log, Reply(data.messageResponse.value))
    ensures data.recipeIdea.None? && Truthy(data.messageResponse) && IsBlank(data.messageResponse.value) ==>
      AfterResult(log, data) == log
    ensures data.recipeIdea.None? && !Truthy(data.messageResponse) && Truthy(data.error) ==>
      AfterResult(log, data) == ReplaceLast(log, Failure(data.error.value))
    ensures data.recipeIdea.None? && !Truthy(data.messageResponse) && !Truthy(data.error) ==>
      AfterResult(log, data) == log
  {
    if data.messageResponse.Some? && !IsBlank(data.messageResponse.value) {
      assert data.messageResponse.value != "";
    }
  }

  /** The page state: the transcript and the text in the input field. */
  class ChatRoom {
    var chatLog: seq<Turn>
    var message: string
    const authUserId: Option<Id>

    constructor (authUserId: Option<Id>)
      ensures chatLog == [] && message == "" && this.authUserId == authUserId
    {
      chatLog := [];
      message := "";
      this.authUserId := authUserId;
    }

    /** The input's `onChange`. */
    method Type(text: string)
      modifies this
      ensures message == text && chatLog == old(chatLog)
    {
      message := text;
    }

    /** `handleSubmit`: a blank input does nothing; otherwise one pending
      turn carrying the input is appended after all existing turns, the
      request goes out with the intent the classifier picks, and the input
      is cleared. */
    method HandleSubmit() returns (sent: Option<Submission>)
      modifies this
      ensures IsBlank(old(message)) ==>
                sent == None && chatLog == old(chatLog) && message == old(message)
      ensures !IsBlank(old(message)) ==>
                && chatLog == old(chatLog) + [Turn(Some(old(message)), Loading)]
                && message == ""
                && sent == Some(SubmitRequest(old(message)))
    {
      if IsBlank(message) {
        sent := None;
        return;
      }
      chatLog := chatLog + [Turn(Some(message), Loading)];
      sent := Some(SubmitRequest(message));
      message := "";
    }

    /** The two effects on `fetcher.data`: the transcript update, and an
      alert carrying `data.message` when the body reports success. */
    method OnData(data: ActionData) returns (alert: Option<Option<string>>)
      modifies this
      ensures chatLog == AfterResult(old(chatLog), data) && message == old(message)
      ensures alert == if data.success then Some(data.message) else None
    {
      chatLog := AfterResult(chatLog, data);
      alert := if data.success then Some(data.message) else None;
    }
  }

  /** The request `handleSubmit` posts for a message: the page's own
      classification picks the intent. */
  function SubmitRequest(message: string): (req: Submission)
    ensures req.intent == "generate" <==> IsRecipeRequest(message)
    ensures req.intent == "generateMessage" <==> !IsRecipeRequest(message)
    ensures req.message == Some(message) && req.recipe.None? && req.user.None?
  {
    Submission(if IsRecipeRequest(message) then "generate" else "generateMessage", Some(message), None, None)
  }

  /** The request `handleRegenerate(lastMessage)` posts: always "generate",
      whatever the message, so the server's classifier decides. */
  function RegenerateRequest(lastMessage: string): (req: Submission)
    ensures req.intent == "generate" && req.message == Some(lastMessage)
    ensures req.recipe.None? && req.user.None?
  {
    Submission("generate", Some(lastMessage), None, None)
  }

  /** The text a form field carries for a value that may be `undefined`:
      the request encoding turns `undefined` into the string "undefined". */
  function PostedText(value: Option<string>): (text: string)
    ensures value.Some? ==> text == value.value
    ensures value.None? ==> text == "undefined"
  {
    if value.Some? then value.value else "undefined"
  }

  /** The request `handleSave(recipe)` posts, stamped with the page's user
      id. The page does not require a session, so the id may be
      `undefined`; the field is then the text "undefined". */
  function SaveRequest(recipe: RecipeIdea, authUserId: Option<Id>): (req: Submission)
    ensures req.intent == "save" && req.recipe == Some(recipe) && req.message.None?
    ensures req.user == Some(PostedText(authUserId))
  {
    Submission("save", None, Some(recipe), Some(PostedText(authUserId)))
  }

  /** Saving from a page opened without a session passes the action's
      owner check: the posted owner is the non-empty text "undefined", so
      the store accepts the record, owned by that text. */
  lemma SaveWithoutSessionIsOwnedByUndefined(recipe: RecipeIdea)
    ensures Truthy(SaveRequest(recipe, None).user)
    ensures SaveRequest(recipe, None).user == Some("undefined")
  {
  }

  /** Regenerate goes through the server's classifier again: the action
      answers the regenerate request exactly as it answers a fresh submit of
      the same text, so for text without "recipe" or "meal idea" it chats
      and its body never carries a recipe idea. */
  lemma {:induction false} RegenerateReclassifies(lastMessage: string,
                               recipeModel: seq<Message> -> Completion<RecipeIdea>,
                               chatModel: seq<Message> -> Completion<string>)
    ensures var req := RegenerateRequest(lastMessage);
      var data := AskModel(req.intent, req.message, recipeModel, chatModel);
      !IsRecipeRequest(lastMessage) ==>
        data.recipeIdea.None? &&
        (chatModel(ChatMessages(Some(lastMessage))).Answered? ==>
           data.messageResponse == FirstChoice(chatModel(ChatMessages(Some(lastMessage))).choices))
    ensures AskModel(RegenerateRequest(lastMessage).intent, RegenerateRequest(lastMessage).message, recipeModel, chatModel)
         == AskModel(SubmitRequest(lastMessage).intent, SubmitRequest(lastMessage).message, recipeModel, chatModel)
  {
  }

  /** One full turn: a non-blank submit followed by the action's answer to
      the request it posted leaves the earlier turns alone and ends with one
      turn holding the submitted text. That turn shows a recipe only for a
      recipe request, a reply only for any other message, and an error only
      with one of the two fixed messages; conversely, the model's first
      recipe idea, its first non-blank reply, or the message its failure
      maps to is what the turn shows. */
  lemma {:induction false} SubmitThenAnswer(log: seq<Turn>, text: string,
                                            recipeModel: seq<Message> -> Completion<RecipeIdea>,
                                            chatModel: seq<Message> -> Completion<string>)
    requires !IsBlank(text)
    ensures var req := SubmitRequest(text);
      var data := AskModel(req.intent, req.message, recipeModel, chatModel);
      var after := AfterResult(log + [Turn(Some(text), Loading)], data);
      && |after| == |log| + 1
      && after[..|log|] == log
      && after[|log|].user == Some(text)
      && (after[|log|].bot.Idea? ==> IsRecipeRequest(text))
      && (after[|log|].bot.Reply? ==> !IsRecipeRequest(text))
      && (after[|log|].bot.Failure? ==>
            after[|log|].bot.error == CapacityMessage || after[|log|].bot.error == GenericMessage)
    ensures var after := AfterResult(log + [Turn(Some(text), Loading)],
                                     AskModel(SubmitRequest(text).intent, Some(text), recipeModel, chatModel));
      var c := recipeModel(RecipeMessages(Some(text)));
      IsRecipeRequest(text) ==>
        && (c.Answered? && |c.choices| > 0 && c.choices[0].Some? ==> after[|log|].bot == Idea(c.choices[0].value))
        && (c.Failed? ==> after[|log|].bot == Failure(FailureMessage(c.thrown)))
    ensures var after := AfterResult(log + [Turn(Some(text), Loading)],
                                     AskModel(SubmitRequest(text).intent, Some(text), recipeModel, chatModel));
      var c := chatModel(ChatMessages(Some(text)));
      !IsRecipeRequest(text) ==>
        && (c.Answered? && |c.choices| > 0 && c.choices[0].Some? && !IsBlank(c.choices[0].value) ==>
              after[|log|].bot == Reply(c.choices[0].value))
        && (c.Failed? ==> after[|log|].bot == Failure(FailureMessage(c.thrown)))
  {
    var req := SubmitRequest(text);
    var data := AskModel(req.intent, req.message, recipeModel, chatModel);
    var pending := log + [Turn(Some(text), Loading)];
    AfterResultCases(pending, data);
    assert pending[..|log|] == log;
  }
}

=== FILE: collection_destroy.dfy ===
/** app/routes/collection-destroy.tsx: deleting a collection after
    pulling its id out of every recipe's membership list. */
module CollectionDestroy {
  import opened Common
  import opened Lists
  import opened Store

  /** What `$pull: { collections: id }` does to one recipe matched by
      `{ collections: id }`: every occurrence of the id leaves the list. A
      recipe not listing the id is not matched and stays as it is. */
  function Pulled(r: Recipe, collectionId: Id): (u: Recipe)
    ensures collectionId !in Memberships(u)
    ensures collectionId !in Memberships(r) ==> u == r
    ensures forall c :: c != collectionId ==> (c in Memberships(u) <==> c in Memberships(r))
    ensures u.(collections := r.collections) == r
  {
    if collectionId in Memberships(r)
    then r.(collections := Some(Filter(Memberships(r), (c: Id) => c != collectionId)))
    else r
  }

  /** `updateMany` over the whole recipe store. */
  function PullEverywhere(recipes: map<Id, Recipe>, collectionId: Id): (result: map<Id, Recipe>)
    ensures result.Keys == recipes.Keys
    ensures forall k :: k in result ==> result[k] == Pulled(recipes[k], collectionId)
  {
    map k | k in recipes :: Pulled(recipes[k], collectionId)
  }

  /** After the pull no recipe lists the collection; recipes that did not
      list it are untouched, and the others keep every copy of their other
      memberships, in order. */
  lemma PullEverywhereSpec(recipes: map<Id, Recipe>, collectionId: Id)
    ensures forall k :: k in PullEverywhere(recipes, collectionId) ==>
              collectionId !in Memberships(PullEverywhere(recipes, collectionId)[k])
    ensures forall k :: k in recipes && collectionId !in Memberships(recipes[k]) ==>
              PullEverywhere(recipes, collectionId)[k] == recipes[k]
    ensures forall k :: k in recipes ==>
              IsSubsequence(Memberships(PullEverywhere(recipes, collectionId)[k]), Memberships(recipes[k]))
    ensures forall k, c :: k in recipes && c != collectionId ==>
              multiset(Memberships(PullEverywhere(recipes, collectionId)[k]))[c] == multiset(Memberships(recipes[k]))[c]
  {
    forall k | k in recipes
      ensures IsSubsequence(Memberships(PullEverywhere(recipes, collectionId)[k]), Memberships(recipes[k]))
      ensures forall c :: c != collectionId ==>
                multiset(Memberships(PullEverywhere(recipes, collectionId)[k]))[c] == multiset(Memberships(recipes[k]))[c]
    {
      if collectionId in Memberships(recipes[k]) {
        FilterSubsequence(Memberships(recipes[k]), (c: Id) => c != collectionId);
        FilterCount(Memberships(recipes[k]), (c: Id) => c != collectionId);
      } else {
        SubsequenceRefl(Memberships(recipes[k]));
      }
    }
  }

  /** Which store call throws inside the `try` block. */
  datatype Fault = NoFault | PullFails | DeleteFails

  /** The action for collection `id`; it checks neither a session nor
      ownership. A failing pull changes nothing; a failing delete comes
      after the pull, which stays done. Either failure answers `{status:
      500}`. */
  method Action(db: Database, id: Id, fault: Fault) returns (reply: Reply)
    modifies db
    ensures db.users == old(db.users)
    ensures fault == PullFails ==>
              reply == StatusOnly(500) && db.recipes == old(db.recipes) && db.collections == old(db.collections)
    ensures fault == DeleteFails ==>
              && reply == StatusOnly(500)
              && db.recipes == PullEverywhere(old(db.recipes), id)
              && db.collections == old(db.collections)
    ensures fault == NoFault ==>
              && reply == Redirect("/collections")
              && db.recipes == PullEverywhere(old(db.recipes), id)
              && db.collections == old(db.collections) - {id}
  {
    if fault == PullFails {
      return StatusOnly(500);
    }
    db.recipes := PullEverywhere(db.recipes, id);
    if fault == DeleteFails {
      return StatusOnly(500);
    }
    db.collections := db.collections - {id};
    reply := Redirect("/collections");
  }
}

=== FILE: common.dfy ===
/** Shapes shared by the route modules: optional values, the replies a
    loader or action hands back to the router, and the session check. */
module Common {

  /** A JavaScript value that may be `undefined` or `null`. */
  datatype Option<+T> = None | Some(value: T)

  /** Identifiers of users, recipes and collections (ObjectId strings). */
  type Id = string

  /** What a loader or action hands back to the router:
      a redirect (`redirect(...)`, returned or thrown), a plain object
      `{status, message}` or `{status}` returned as action data, a thrown
      `Response` with a status and a text body, or a returned `Response`
      whose JSON body is `{error}`. */
  datatype Reply =
    | Redirect(location: string)
    | Data(status: int, message: string)
    | StatusOnly(status: int)
    | ThrownResponse(status: int, body: string)
    | JsonError(status: int, error: string)

  /** What a loader ends with: a reply that stops the page (a thrown
      redirect or response), or the data the page renders. */
  datatype Load<+T> = Stop(reply: Reply) | Loaded(value: T)

  /** JavaScript truthiness of an optional string: `undefined`, `null`
      and the empty string are falsy. */
  predicate Truthy(s: Option<string>) {
    s.Some? && s.value != ""
  }

  /** `if (!authUserId)` fails for an absent session value and for the
      empty string, so only a non-empty id counts as signed in. */
  predicate SignedIn(authUserId: Option<Id>) {
    Truthy(authUserId)
  }

  /** A value thrown by an awaited call; `message` is `error?.message`. */
  datatype Thrown = Thrown(message: Option<string>)

  /** How an awaited call ends: with a value or by throwing. */
  datatype Outcome<+T> = Returned(value: T) | Raised(thrown: Thrown)
}

=== FILE: home.dfy ===
/** app/routes/home.tsx: the signed-in user's recipe list, narrowed by a
    title search, a set of selected tags and a favourites switch, with the
    tags of all listed recipes offered for selection. */
module Home {
  import opened Common
  import opened Text
  import opened Lists
  import opened Store

  // ---------------------------------------------------------------------
  // Loader

  /** The loader: without a session it throws a redirect to /signin;
      otherwise it lists the recipes of every user (`getRecipes`, in store
      order) and keeps those whose `user` is the session user. */
  function Loader(authUserId: Option<Id>, all: seq<Recipe>): (r: Load<seq<Recipe>>)
    ensures !SignedIn(authUserId) ==> r == Stop(Redirect("/signin"))
    ensures SignedIn(authUserId) ==> r.Loaded?
    ensures SignedIn(authUserId) ==>
              forall x :: x in r.value <==> x in all && x.user == authUserId.value
  {
    if !SignedIn(authUserId) then Stop(Redirect("/signin"))
    else Loaded(Filter(all, (x: Recipe) => x.user == authUserId.value))
  }

  /** The loaded list keeps the store order: it is a subsequence of it,
      it leaves out no recipe of the user, and it holds each of the user's
      records as often as the store does. */
  lemma LoaderKeepsStoreOrder(authUserId: Option<Id>, all: seq<Recipe>)
    requires SignedIn(authUserId)
    ensures IsSubsequence(Loader(authUserId, all).value, all)
    ensures forall k :: 0 <= k < |all| && all[k].user == authUserId.value ==>
              all[k] in Loader(authUserId, all).value
    ensures forall x :: multiset(Loader(authUserId, all).value)[x] ==
              if x.user == authUserId.value then multiset(all)[x] else 0
  {
    FilterSubsequence(all, (x: Recipe) => x.user == authUserId.value);
    FilterCount(all, (x: Recipe) => x.user == authUserId.value);
  }

  // ---------------------------------------------------------------------
  // Filtering

  /** The title filter: the lower-cased title includes the lower-cased query. */
  predicate MatchesQuery(r: Recipe, query: string) {
    Contains(ToLower(r.title), ToLower(query))
  }

  /** The tag filter: no tag selected, or every selected tag among the
      recipe's tags. */
  predicate HasSelectedTags(r: Recipe, selected: seq<string>) {
    |selected| == 0 || forall t :: t in selected ==> t in r.tags
  }

  /** The favourites filter: the switch is off, or the recipe is a
      favourite. */
  predicate PassesFavourites(r: Recipe, showFavorites: bool) {
    !showFavorites || r.isFavourite == Some(true)
  }

  /** All three conditions at once. */
  predicate Kept(r: Recipe, query: string, selected: seq<string>, showFavorites: bool) {
    MatchesQuery(r, query) && HasSelectedTags(r, selected) && PassesFavourites(r, showFavorites)
  }

  /** `filteredRecipes`: the three filters applied in turn. A recipe is
      shown exactly when it is listed and meets all three conditions, and
      the shown recipes keep the list's order: the chain is one filter by
      the conjunction. */
  function FilteredRecipes(recipes: seq<Recipe>, query: string, selected: seq<string>, showFavorites: bool)
    : (shown: seq<Recipe>)
    ensures shown == Filter(recipes, (r: Recipe) => Kept(r, query, selected, showFavorites))
    ensures forall r :: r in shown <==> r in recipes && Kept(r, query, selected, showFavorites)
    ensures IsSubsequence(shown, recipes)
  {
    var q := (r: Recipe) => MatchesQuery(r, query);
    var t := (r: Recipe) => HasSelectedTags(r, selected);
    var f := (r: Recipe) => PassesFavourites(r, showFavorites);
    var qt := (r: Recipe) => MatchesQuery(r, query) && HasSelectedTags(r, selected);
    var all := (r: Recipe) => Kept(r, query, selected, showFavorites);
    FilterFilter(recipes, q, t, qt);
    FilterFilter(recipes, qt, f, all);
    FilterSubsequence(recipes, all);
    Filter(Filter(Filter(recipes, q), t), f)
  }

  /** An empty query, no selected tag and the favourites switch off show
      every recipe. */
  lemma NoCriteriaShowsAll(recipes: seq<Recipe>)
    ensures FilteredRecipes(recipes, "", [], false) == recipes
  {
    forall r: Recipe ensures Kept(r, "", [], false) {
      assert OccursAt(ToLower(r.title), ToLower(""), 0);
    }
    FilterKeepsAll(recipes, (r: Recipe) => Kept(r, "", [], false));
  }

  /** Selecting one more tag never shows a recipe that was hidden: the new
      list is a subsequence of the old one. */
  lemma MoreTagsShowFewer(recipes: seq<Recipe>, query: string, selected: seq<string>,
                          tag: string, showFavorites: bool)
    ensures IsSubsequence(FilteredRecipes(recipes, query, selected + [tag], showFavorites),
                          FilteredRecipes(recipes, query, selected, showFavorites))
  {
    forall r: Recipe | Kept(r, query, selected + [tag], showFavorites)
      ensures Kept(r, query, selected, showFavorites)
    {
      assert forall t :: t in selected ==> t in selected + [tag];
    }
    FilterStricter(recipes,
                   (r: Recipe) => Kept(r, query, selected, showFavorites),
                   (r: Recipe) => Kept(r, query, selected + [tag], showFavorites));
  }

  // ---------------------------------------------------------------------
  // Tags

  /** `uniqueTags`: every tag of every listed recipe, once, in the order
      it first appears. The offered tags have no duplicates and are exactly
      the tags some listed recipe carries. */
  function UniqueTags(recipes: seq<Recipe>): (tags: seq<string>)
    ensures NoDup(tags)
    ensures forall t :: t in tags <==> exists k :: 0 <= k < |recipes| && t in recipes[k].tags
    ensures forall k :: 0 <= k < |tags| ==> tags[k] in FlatMap(recipes, (r: Recipe) => r.tags)
    ensures var all := FlatMap(recipes, (r: Recipe) => r.tags);
      forall i, j :: 0 <= i < j < |tags| ==> FirstIndex(all, tags[i]) < FirstIndex(all, tags[j])
  {
    DedupFirstOccurrenceOrder(FlatMap(recipes, (r: Recipe) => r.tags));
    Dedup(FlatMap(recipes, (r: Recipe) => r.tags))
  }

  /** `handleTagChange(tag)` on a selection: a selected tag is removed
      wherever it occurs, an unselected one is appended at the end. */
  function Toggled(selected: seq<string>, tag: string): (r: seq<string>)
    ensures tag in selected ==> tag !in r && IsSubsequence(r, selected)
    ensures tag in selected ==> forall t :: t != tag ==> (t in r <==> t in selected)
    ensures tag in selected ==> forall t :: t != tag ==> multiset(r)[t] == multiset(selected)[t]
    ensures tag !in selected ==> r == selected + [tag]
  {
    if tag in selected then
      FilterSubsequence(selected, (t: string) => t != tag);
      FilterCount(selected, (t: string) => t != tag);
      Filter(selected, (t: string) => t != tag)
    else selected + [tag]
  }

  /** Toggling an unselected tag twice gives the selection back. */
  lemma ToggleTwice(selected: seq<string>, tag: string)
    requires tag !in selected
    ensures Toggled(Toggled(selected, tag), tag) == selected
  {
    FilterAppend(selected, [tag], (t: string) => t != tag);
    FilterKeepsAll(selected, (t: string) => t != tag);
  }

  /** A selection without repeats stays without repeats. */
  lemma ToggledNoDup(selected: seq<string>, tag: string)
    requires NoDup(selected)
    ensures NoDup(Toggled(selected, tag))
  {
    if tag in selected {
      SubsequenceNoDup(Toggled(selected, tag), selected);
    }
  }

  /** The page state the filters read. */
  class HomeView {
    const recipes: seq<Recipe>
    var searchQuery: string
    var selectedTags: seq<string>
    var showFavorites: bool

    /** The page as first rendered with the loader's recipes. */
    constructor (recipes: seq<Recipe>)
      ensures this.recipes == recipes && searchQuery == "" && selectedTags == [] && !showFavorites
    {
      this.recipes := recipes;
      searchQuery := "";
      selectedTags := [];
      showFavorites := false;
    }

    /** The recipes the page shows. */
    function Shown(): seq<Recipe>
      reads this
    {
      FilteredRecipes(recipes, searchQuery, selectedTags, showFavorites)
    }

    /** The search input's `onChange`. */
    method Search(query: string)
      modifies this
      ensures searchQuery == query
      ensures selectedTags == old(selectedTags) && showFavorites == old(showFavorites)
    {
      searchQuery := query;
    }

    /** The favourites switch's `onChange`. */
    method FlipFavorites()
      modifies this
      ensures showFavorites == !old(showFavorites)
      ensures searchQuery == old(searchQuery) && selectedTags == old(selectedTags)
    {
      showFavorites := !showFavorites;
    }

    /** `handleTagChange(tag)`. */
    method HandleTagChange(tag: string)
      modifies this
      ensures selectedTags == Toggled(old(selectedTags), tag)
      ensures searchQuery == old(searchQuery) && showFavorites == old(showFavorites)
      ensures tag !in old(selectedTags) ==> IsSubsequence(Shown(), old(Shown()))
    {
      ghost var before := selectedTags;
      selectedTags := Toggled(selectedTags, tag);
      if tag !in before {
        MoreTagsShowFewer(recipes, searchQuery, before, tag, showFavorites);
      }
    }
  }
}

=== FILE: lists.dfy ===
/** The JavaScript array operations the list views use (`filter`,
    `flatMap`, `Array.from(new Set(...))`), written over Dafny sequences,
    with the facts the views need about them. */
module Lists {
  import opened Common

  // ---------------------------------------------------------------------
  // Subsequences

  /** `a` is obtained from `b` by deleting elements, keeping the order. */
  predicate IsSubsequence<T(==)>(a: seq<T>, b: seq<T>)
    decreases |b|
  {
    if |b| == 0 then |a| == 0
    else (|a| > 0 && a[0] == b[0] && IsSubsequence(a[1..], b[1..])) || IsSubsequence(a, b[1..])
  }

  /** Every sequence is a subsequence of itself. */
  lemma {:induction false} SubsequenceRefl<T>(a: seq<T>)
    ensures IsSubsequence(a, a)
  {
    if |a| > 0 {
      SubsequenceRefl(a[1..]);
    }
  }

  /** A subsequence has no more elements, and only elements of the
      sequence it comes from. */
  lemma {:induction false} SubsequenceElements<T>(a: seq<T>, b: seq<T>)
    requires IsSubsequence(a, b)
    ensures |a| <= |b|
    ensures forall x :: x in a ==> x in b
  {
    if |b| > 0 {
      if |a| > 0 && a[0] == b[0] && IsSubsequence(a[1..], b[1..]) {
        SubsequenceElements(a[1..], b[1..]);
        assert forall x :: x in a ==> x == a[0] || x in a[1..];
      } else {
        SubsequenceElements(a, b[1..]);
      }
    }
  }

  // ---------------------------------------------------------------------
  // filter

  /** `xs.filter(p)`: the elements satisfying `p`, in their order. */
  function Filter<T(!new)>(xs: seq<T>, p: T -> bool): (r: seq<T>)
    ensures |r| <= |xs|
    ensures forall x :: x in r <==> x in xs && p(x)
  {
    if |xs| == 0 then []
    else if p(xs[0]) then [xs[0]] + Filter(xs[1..], p)
    else Filter(xs[1..], p)
  }

  /** Filtering keeps the order: the result is a subsequence of the input. */
  lemma {:induction false} FilterSubsequence<T(!new)>(xs: seq<T>, p: T -> bool)
    ensures IsSubsequence(Filter(xs, p), xs)
  {
    if |xs| > 0 {
      FilterSubsequence(xs[1..], p);
      if p(xs[0]) {
        assert Filter(xs, p)[1..] == Filter(xs[1..], p);
      }
    }
  }

  /** Two filters in a row are one filter by the conjunction. */
  lemma {:induction false} FilterFilter<T(!new)>(xs: seq<T>, p: T -> bool, q: T -> bool, pq: T -> bool)
    requires forall x :: pq(x) == (p(x) && q(x))
    ensures Filter(Filter(xs, p), q) == Filter(xs, pq)
  {
    if |xs| > 0 {
      FilterFilter(xs[1..], p, q, pq);
      if p(xs[0]) {
        assert Filter(xs, p) == [xs[0]] + Filter(xs[1..], p);
        assert Filter(xs, p)[1..] == Filter(xs[1..], p);
      }
    }
  }

  /** A stricter condition keeps a subsequence of what a looser one keeps. */
  lemma {:induction false} FilterStricter<T(!new)>(xs: seq<T>, p: T -> bool, q: T -> bool)
    requires forall x :: q(x) ==> p(x)
    ensures IsSubsequence(Filter(xs, q), Filter(xs, p))
  {
    if |xs| > 0 {
      FilterStricter(xs[1..], p, q);
      var fq, fp := Filter(xs, q), Filter(xs, p);
      if q(xs[0]) {
        assert fq[0] == fp[0] && fq[1..] == Filter(xs[1..], q) && fp[1..] == Filter(xs[1..], p);
      } else if p(xs[0]) {
        assert fp[1..] == Filter(xs[1..], p);
      }
    }
  }

  /** A condition every element meets keeps everything. */
  lemma {:induction false} FilterKeepsAll<T(!new)>(xs: seq<T>, p: T -> bool)
    requires forall k :: 0 <= k < |xs| ==> p(xs[k])
    ensures Filter(xs, p) == xs
  {
    if |xs| > 0 {
      FilterKeepsAll(xs[1..], p);
      assert [xs[0]] + xs[1..] == xs;
    }
  }

  /** Filtering distributes over concatenation. */
  lemma {:induction false} FilterAppend<T(!new)>(xs: seq<T>, ys: seq<T>, p: T -> bool)
    ensures Filter(xs + ys, p) == Filter(xs, p) + Filter(ys, p)
  {
    if |xs| > 0 {
      FilterAppend(xs[1..], ys, p);
      assert (xs + ys)[1..] == xs[1..] + ys;
    } else {
      assert xs + ys == ys;
    }
  }

  /** Filtering keeps every copy of a passing element and no copy of any
      other. */
  lemma {:induction false} FilterCount<T(!new)>(xs: seq<T>, p: T -> bool)
    ensures forall x :: multiset(Filter(xs, p))[x] == if p(x) then multiset(xs)[x] else 0
  {
    if |xs| > 0 {
      FilterCount(xs[1..], p);
      assert xs == [xs[0]] + xs[1..];
    }
  }

  // ---------------------------------------------------------------------
  // Distinct elements, in first-occurrence order

  /** No element occurs twice. */
  predicate NoDup<T(==)>(xs: seq<T>) {
    forall i, j :: 0 <= i < j < |xs| ==> xs[i] != xs[j]
  }

  /** Deleting elements cannot create a repeat. */
  lemma {:induction false} SubsequenceNoDup<T>(a: seq<T>, b: seq<T>)
    requires IsSubsequence(a, b) && NoDup(b)
    ensures NoDup(a)
  {
    if |b| > 0 {
      assert NoDup(b[1..]) by {
        forall i, j | 0 <= i < j < |b| - 1 ensures b[1..][i] != b[1..][j] {
          assert b[1..][i] == b[i + 1] && b[1..][j] == b[j + 1];
        }
      }
      if |a| > 0 && a[0] == b[0] && IsSubsequence(a[1..], b[1..]) {
        SubsequenceNoDup(a[1..], b[1..]);
        SubsequenceElements(a[1..], b[1..]);
        forall i, j | 0 <= i < j < |a| ensures a[i] != a[j] {
          assert a[j] == a[1..][j - 1];
          if i == 0 {
            assert a[j] in b[1..];
            var k :| 0 <= k < |b| - 1 && b[1..][k] == a[j];
            assert b[k + 1] == a[j];
          } else {
            assert a[i] == a[1..][i - 1];
          }
        }
      } else {
        SubsequenceNoDup(a, b[1..]);
      }
    }
  }

  /** The position of the first occurrence of `x` in `xs`. */
  function FirstIndex<T(==)>(xs: seq<T>, x: T): (i: nat)
    requires x in xs
    ensures i < |xs| && xs[i] == x
    ensures forall k :: 0 <= k < i ==> xs[k] != x
  {
    if xs[0] == x then 0 else 1 + FirstIndex(xs[1..], x)
  }

  /** Appending leaves the first occurrence of an element already present
      where it was. */
  lemma FirstIndexAppend<T>(xs: seq<T>, y: T, x: T)
    requires x in xs
    ensures FirstIndex(xs + [y], x) == FirstIndex(xs, x)
  {
    var i, j := FirstIndex(xs + [y], x), FirstIndex(xs, x);
    assert (xs + [y])[j] == x;
    assert xs[i] == x;
  }

  /** `Array.from(new Set(xs))`: each distinct element once, in the order
      a set that is filled from `xs` first sees it. */
  function Dedup<T(==,!new)>(xs: seq<T>): (r: seq<T>)
    ensures forall x :: x in r <==> x in xs
    ensures NoDup(r)
  {
    if |xs| == 0 then []
    else
      var d := Dedup(xs[..|xs| - 1]);
      var y := xs[|xs| - 1];
      assert forall x :: x in xs <==> x in xs[..|xs| - 1] || x == y by {
        assert xs == xs[..|xs| - 1] + [y];
      }
      if y in d then d else d + [y]
  }

  /** The distinct elements come in the order of their first occurrences. */
  lemma {:induction false} DedupFirstOccurrenceOrder<T(!new)>(xs: seq<T>)
    ensures forall i, j :: 0 <= i < j < |Dedup(xs)| ==>
              FirstIndex(xs, Dedup(xs)[i]) < FirstIndex(xs, Dedup(xs)[j])
  {
    if |xs| > 0 {
      var init, y := xs[..|xs| - 1], xs[|xs| - 1];
      assert xs == init + [y];
      DedupFirstOccurrenceOrder(init);
      var d, r := Dedup(init), Dedup(xs);
      assert r == if y in d then d else d + [y];
      forall i, j | 0 <= i < j < |r| ensures FirstIndex(xs, r[i]) < FirstIndex(xs, r[j]) {
        assert r[i] == d[i] && d[i] in init;
        FirstIndexAppend(init, y, d[i]);
        if j < |d| {
          assert r[j] == d[j] && d[j] in init;
          FirstIndexAppend(init, y, d[j]);
          assert FirstIndex(init, d[i]) < FirstIndex(init, d[j]);
        } else {
          assert r[j] == y && y !in init;
          assert FirstIndex(xs, y) == |init|;
          assert FirstIndex(init, d[i]) < |init|;
        }
      }
    }
  }

  // ---------------------------------------------------------------------
  // find

  /** The position of the first element satisfying `p`, as a query that
      returns the first match does; `None` when there is none. */
  function FirstMatch<T>(xs: seq<T>, p: T -> bool): (i: Option<nat>)
    ensures i.Some? ==> i.value < |xs| && p(xs[i.value])
    ensures i.Some? ==> forall k :: 0 <= k < i.value ==> !p(xs[k])
    ensures i.None? ==> forall k :: 0 <= k < |xs| ==> !p(xs[k])
  {
    if |xs| == 0 then None
    else if p(xs[0]) then Some(0)
    else match FirstMatch(xs[1..], p)
      case None => None
      case Some(j) => Some(j + 1)
  }

  // ---------------------------------------------------------------------
  // flatMap

  /** `xs.flatMap(f)`: the lists `f` gives, one after another. */
  function FlatMap<T, U(!new)>(xs: seq<T>, f: T -> seq<U>): (r: seq<U>)
    ensures forall u :: u in r <==> exists k :: 0 <= k < |xs| && u in f(xs[k])
  {
    if |xs| == 0 then []
    else
      var rest := FlatMap(xs[1..], f);
      assert forall u :: (exists k :: 0 <= k < |xs| && u in f(xs[k])) <==>
                         u in f(xs[0]) || exists k :: 0 <= k < |xs| - 1 && u in f(xs[1..][k]) by {
        forall u | exists k :: 0 <= k < |xs| && u in f(xs[k])
          ensures u in f(xs[0]) || exists k :: 0 <= k < |xs| - 1 && u in f(xs[1..][k])
        {
          var k :| 0 <= k < |xs| && u in f(xs[k]);
          if k > 0 { assert xs[1..][k - 1] == xs[k]; }
        }
        forall u, k | 0 <= k < |xs| - 1 && u in f(xs[1..][k])
          ensures exists k :: 0 <= k < |xs| && u in f(xs[k])
        {
          assert xs[1..][k] == xs[k + 1];
        }
      }
      f(xs[0]) + rest
  }
}

=== FILE: llm.dfy ===
/** The hosted language model as the two services see it: a role-tagged
    message list goes in, and the model either throws or answers with a list
    of choices. The model itself is a function parameter (an oracle). */
module Mistral {
  import opened Common

  datatype Role = SystemRole | AssistantRole | UserRole

  datatype Message = Message(role: Role, content: string)

  /** What `mistral.chat.parse` / `mistral.chat.complete` yield: a thrown
      error, or the list of choices. Each choice is what optional chaining
      reaches in it (`?.message?.parsed` or `?.message?.content`), so an
      unset message or value is `None`; an unset `choices` reads as empty. */
  datatype Completion<+T> = Failed(thrown: Thrown) | Answered(choices: seq<Option<T>>)

  /** `response.choices?.[0]?...`: the first choice's value, or `None`
      when there is no choice. */
  function FirstChoice<T>(choices: seq<Option<T>>): (r: Option<T>)
    ensures |choices| == 0 ==> r == None
    ensures |choices| > 0 ==> r == choices[0]
  {
    if |choices| == 0 then None else choices[0]
  }

  /** The message list both services send: the system prompt, followed,
      when `message` is truthy, by a fixed assistant cue and the user's
      message (`...(message ? [cue, user] : [])`). */
  function Prompt(system: string, cue: string, message: Option<string>): (msgs: seq<Message>)
    ensures |msgs| == if Truthy(message) then 3 else 1
    ensures msgs[0] == Message(SystemRole, system)
    ensures Truthy(message) ==> msgs[1] == Message(AssistantRole, cue)
    ensures Truthy(message) ==> msgs[2] == Message(UserRole, message.value)
    ensures forall k :: 0 <= k < |msgs| && msgs[k].role == UserRole ==>
              k == |msgs| - 1 && message.Some? && msgs[k].content == message.value
  {
    [Message(SystemRole, system)]
    + if Truthy(message) then [Message(AssistantRole, cue), Message(UserRole, message.value)] else []
  }

  /** One round trip to the model: send the prompt, keep the first choice. */
  function Ask<T>(model: seq<Message> -> Completion<T>, msgs: seq<Message>): (r: Outcome<Option<T>>)
    ensures model(msgs).Failed? <==> r.Raised?
    ensures model(msgs).Failed? ==> r.thrown == model(msgs).thrown
    ensures model(msgs).Answered? ==> r.value == FirstChoice(model(msgs).choices)
  {
    match model(msgs)
    case Failed(t) => Raised(t)
    case Answered(cs) => Returned(FirstChoice(cs))
  }
}

/** app/services/generateRecipeIdea.ts: structured recipe generation and
    saving an accepted recipe. */
module RecipeIdeaService {
  import opened Common
  import opened Mistral
  import opened Store

  /** The value shape the model's answer is parsed into
      (`recipeIdeaSchema`): exactly these six fields. */
  datatype RecipeIdea = RecipeIdea(
    title: string,
    description: string,
    ingredients: seq<string>,
    steps: seq<string>,
    tags: seq<string>,
    estimatedTime: int)

  const RecipeSystemPrompt: string :=
    "You are a wise and soulful food guide, deeply connected to nature, sustainability, and the joy of mindful eating. You believe that food is nourishment for both body and soul, and you encourage a holistic, Earth-friendly approach to cooking and eating.\n\n"
    + "If a user asks about ingredients, meal ideas, or cooking techniques, respond with warmth and wisdom. If their curiosity naturally aligns with a recipe, gently offer one, like a shared gift from Mother Earth.\n\n"
    + "When generating a recipe, follow these principles:\n"
    + "- Offer vibrant, mindful, and sustainable meal ideas.\n"
    + "- Use plant-based, whole, and locally sourced ingredients whenever possible.\n"
    + "- Keep recipes simple, natural, and intuitive\U{2014}cooking should be a joyful experience.\n"
    + "- Encourage reducing food waste and using seasonal produce.\n"
    + "- Include an estimated cooking time in minutes, so the journey feels intentional.\n"
    + "- Only use European measurements (grams, liters, etc.).\n\n"
    + "- Feel free to use appropriate emojis in the description and title.\n\n"
    + "- Tags should only include dietary restictions(vegan, gluten free etc.) and meal type(lunch, dinner, snack etc.).\n\n"
    + "For general food-related questions, answer with heart and wisdom. Share knowledge freely, but only offer a recipe when the user\U{2019}s soul (or stomach) truly calls for it."

  const RecipeCue: string := "Can you provide me with a recipe?"

  /** The messages `generateRecipeIdea` sends for `message`. */
  function RecipeMessages(message: Option<string>): seq<Message> {
    Prompt(RecipeSystemPrompt, RecipeCue, message)
  }

  /** `generateRecipeIdea({ message })`: asks the model for a value of the
      RecipeIdea shape and returns the first choice's parsed value. */
  function GenerateRecipeIdea(message: Option<string>, model: seq<Message> -> Completion<RecipeIdea>)
    : Outcome<Option<RecipeIdea>>
  {
    Ask(model, RecipeMessages(message))
  }

  /** An absent or empty message sends the system prompt alone; any other
      message sends exactly system prompt, recipe cue, message, in that
      order; the system prompt is the same whatever the message. */
  lemma RecipePromptShape(message: Option<string>)
    ensures !Truthy(message) ==> RecipeMessages(message) == [Message(SystemRole, RecipeSystemPrompt)]
    ensures Truthy(message) ==> (RecipeMessages(message) ==
      [Message(SystemRole, RecipeSystemPrompt), Message(AssistantRole, RecipeCue), Message(UserRole, message.value)])
  {
  }

  /** The result of a generation is the model's first parsed choice, no
      choice gives `None`, and a model failure is passed on unchanged. */
  lemma GenerateRecipeIdeaResult(message: Option<string>, model: seq<Message> -> Completion<RecipeIdea>)
    ensures var c := model(RecipeMessages(message));
      && (c.Answered? && |c.choices| == 0 ==> GenerateRecipeIdea(message, model) == Returned(None))
      && (c.Answered? && |c.choices| > 0 ==> GenerateRecipeIdea(message, model) == Returned(c.choices[0]))
      && (c.Failed? ==> GenerateRecipeIdea(message, model) == Raised(c.thrown))
  {
  }

  /** The acknowledgement `saveRecipe` returns. */
  datatype SaveAck = SaveAck(success: bool, message: string)

  const SavedMessage: string := "Recipe saved successfully!"

  /** The error the Recipe schema raises when the required `user` is unset
      or empty. */
  const MissingUser: Thrown := Thrown(Some("Recipe validation failed: user: Path `user` is required."))

  /** The record `new Recipe(recipe)` builds from an idea and its owner:
      the idea's six fields, the owner, an empty membership list (the
      schema's array default) and no favourite flag or image. */
  function RecordFromIdea(idea: RecipeIdea, user: Id): (r: Recipe)
    ensures r.title == idea.title && r.description == idea.description
    ensures r.ingredients == idea.ingredients && r.steps == idea.steps && r.tags == idea.tags
    ensures r.estimatedTime == idea.estimatedTime && r.user == user
    ensures r.collections == Some([]) && r.isFavourite == None && r.image == None
  {
    Recipe(idea.title, idea.description, idea.ingredients, idea.steps, idea.tags,
           idea.estimatedTime, None, Some([]), user, None)
  }

  /** `saveRecipe(recipe)`: one insert under the fresh id `freshId` chosen by
      the store. A missing owner fails schema validation, and `fault` is the
      error a failing store raises; either way nothing is written. */
  method SaveRecipe(db: Database, idea: RecipeIdea, user: Option<Id>, freshId: Id, fault: Option<Thrown>)
    returns (outcome: Outcome<SaveAck>)
    requires freshId !in db.recipes
    modifies db
    ensures db.collections == old(db.collections) && db.users == old(db.users)
    ensures !Truthy(user) ==> outcome == Raised(MissingUser) && db.recipes == old(db.recipes)
    ensures Truthy(user) && fault.Some? ==>
              outcome == Raised(fault.value) && db.recipes == old(db.recipes)
    ensures Truthy(user) && fault.None? ==>
              && outcome == Returned(SaveAck(true, SavedMessage))
              && db.recipes == old(db.recipes)[freshId := RecordFromIdea(idea, user.value)]
  {
    if !Truthy(user) {
      outcome := Raised(MissingUser);
    } else if fault.Some? {
      outcome := Raised(fault.value);
    } else {
      db.recipes := db.recipes[freshId := RecordFromIdea(idea, user.value)];
      outcome := Returned(SaveAck(true, SavedMessage));
    }
  }
}

/** app/services/generateMessages.ts: free-text chat with the model. */
module MessageService {
  import opened Common
  import opened Mistral

  const ChatSystemPrompt: string :=
    "You are a wise and soulful food guide, deeply connected to nature, sustainability, and the joy of mindful eating. You believe that food is nourishment for both body and soul, and you encourage a holistic, Earth-friendly approach to cooking and eating.\n\n"
    + "If a user asks about ingredients, meal ideas, or cooking techniques, respond with warmth and wisdom. If their curiosity naturally aligns with a recipe, gently offer one, like a shared gift from Mother Earth.\n\n"
    + "For general food-related questions, answer with heart and wisdom. Share knowledge freely, but only offer a recipe when the user\U{00E2}\U{20AC}\U{2122}s soul (or stomach) truly calls for it.\n\n"
    + "How You Should Respond:\n\n"
    + "1. **Answer Questions Clearly:**\n"
    + "   - Provide helpful and accurate answers without overloading the user with unnecessary details.\n"
    + "   - Keep the conversation engaging and natural.\n\n"
    + "2. **Maintain a Friendly and Approachable Tone:**\n"
    + "   - Use a conversational tone when responding.\n"
    + "   - If the conversation leads to interesting tangents, feel free to engage but keep it related to the user's interest.\n\n"
    + "**General Response Rules:**\n"
    + "- Avoid giving unsolicited advice.\n"
    + "- Be respectful and considerate in all responses.\n"
    + "- Feel free to use appropriate emojis.\n"
    + "- Keep the answers short and sweet if possible.\n"
    + "- Adapt your responses based on the user's input, but stay within the bounds of a friendly assistant."

  const ChatCue: string := "Can you provide me with tips and information about food related questions?"

  /** The messages `generateMessages` sends for `message`. */
  function ChatMessages(message: Option<string>): seq<Message> {
    Prompt(ChatSystemPrompt, ChatCue, message)
  }

  /** `generateMessages({ message })`: the first choice's text content. */
  function GenerateMessages(message: Option<string>, model: seq<Message> -> Completion<string>)
    : Outcome<Option<string>>
  {
    Ask(model, ChatMessages(message))
  }

  /** An absent or empty message sends the system prompt alone; any other
      message sends exactly system prompt, tips cue, message, in that order. */
  lemma ChatPromptShape(message: Option<string>)
    ensures !Truthy(message) ==> ChatMessages(message) == [Message(SystemRole, ChatSystemPrompt)]
    ensures Truthy(message) ==> (ChatMessages(message) ==
      [Message(SystemRole, ChatSystemPrompt), Message(AssistantRole, ChatCue), Message(UserRole, message.value)])
  {
  }

  /** The reply is the model's first choice's content, `None` without a
      choice, and a model failure is passed on unchanged. */
  lemma GenerateMessagesResult(message: Option<string>, model: seq<Message> -> Completion<string>)
    ensures var c := model(ChatMessages(message));
      && (c.Answered? && |c.choices| == 0 ==> GenerateMessages(message, model) == Returned(None))
      && (c.Answered? && |c.choices| > 0 ==> GenerateMessages(message, model) == Returned(c.choices[0]))
      && (c.Failed? ==> GenerateMessages(message, model) == Raised(c.thrown))
  {
  }
}

=== FILE: profile_update.dfy ===
/** app/routes/profile-update.tsx: editing the signed-in user's profile.
    A new password is hashed; an absent or empty one keeps the stored
    hash. `hash` stands for `bcrypt.hash(·, 10)` on this request. */
module ProfileUpdate {
  import opened Common
  import opened Store

  /** What the page receives of a user record: the query does not select
      the password hash, so `toObject()` carries every field but that one. */
  datatype Profile = Profile(id: Id, mail: string, name: Option<string>, image: Option<string>)

  function ProfileOf(u: User): (p: Profile)
    ensures p.id == u.id && p.mail == u.mail && p.name == u.name && p.image == u.image
  {
    Profile(u.id, u.mail, u.name, u.image)
  }

  /** The loader: a session, then the user record. A signed-in user who
      exists is loaded, as the first record with that id and without its
      hash; there is no other way to load. */
  function Loader(users: seq<User>, authUserId: Option<Id>): (r: Load<Profile>)
    ensures !SignedIn(authUserId) ==> r == Stop(Redirect("/signin"))
    ensures SignedIn(authUserId) && UserWithId(users, authUserId.value).None? ==>
              r == Stop(ThrownResponse(404, "User not found"))
    ensures r.Loaded? <==> SignedIn(authUserId) && UserWithId(users, authUserId.value).Some?
    ensures r.Loaded? ==> r == Loaded(ProfileOf(users[UserWithId(users, authUserId.value).value]))
    ensures r.Loaded? ==> r.value.id == authUserId.value && exists u :: u in users && ProfileOf(u) == r.value
  {
    if !SignedIn(authUserId) then Stop(Redirect("/signin"))
    else match UserWithId(users, authUserId.value)
      case None => Stop(ThrownResponse(404, "User not found"))
      case Some(i) => Loaded(ProfileOf(users[i]))
  }

  /** The posted form: the page always sends its name, email and image
      inputs; `password` is `formData.get("password")?.toString()`. */
  datatype ProfileForm = ProfileForm(name: string, email: string, image: string, password: Option<string>)

  /** `hashedPassword`: the hash of a truthy new password, otherwise the
      stored hash. (The code starts from `user.password`, which the query
      does not select; the update then leaves the stored value alone.) */
  function NewPasswordHash(stored: string, password: Option<string>, hash: string -> string): (h: string)
    ensures !Truthy(password) ==> h == stored
    ensures Truthy(password) ==> h == hash(password.value)
  {
    if Truthy(password) then hash(password.value) else stored
  }

  /** The record `findByIdAndUpdate` leaves, as the code is written: the
      update names `email`, which is not a path of the User schema, so
      strict mode drops it and the stored `mail` stays. */
  function UpdatedAsWritten(u: User, form: ProfileForm, hash: string -> string): (v: User)
    ensures v.id == u.id && v.mail == u.mail
    ensures v.name == Some(form.name) && v.image == Some(form.image)
    ensures v.password == NewPasswordHash(u.password, form.password, hash)
  {
    u.(name := Some(form.name), image := Some(form.image),
       password := NewPasswordHash(u.password, form.password, hash))
  }

  /** A user who types a new address keeps the old one. */
  lemma EmailChangeIsLost(u: User, form: ProfileForm, hash: string -> string)
    requires form.email != u.mail
    ensures UpdatedAsWritten(u, form, hash).mail != form.email
  {
  }

  /** The record the update is meant to leave: name, mail and image
      overwritten with the form's values, and the password rule above. */
  function Updated(u: User, form: ProfileForm, hash: string -> string): (v: User)
    ensures v.id == u.id
    ensures v.name == Some(form.name) && v.mail == form.email && v.image == Some(form.image)
    ensures v.password == NewPasswordHash(u.password, form.password, hash)
  {
    UpdatedAsWritten(u, form, hash).(mail := form.email)
  }

  /** Saving the form without a new password keeps the stored hash, and
      saving it again changes nothing more. */
  lemma BlankPasswordKeepsHash(u: User, form: ProfileForm, hash: string -> string)
    requires !Truthy(form.password)
    ensures Updated(u, form, hash).password == u.password
    ensures Updated(Updated(u, form, hash), form, hash) == Updated(u, form, hash)
  {
  }

  /** The action, with the mail written as intended. */
  method Action(db: Database, authUserId: Option<Id>, form: ProfileForm, hash: string -> string)
    returns (reply: Reply)
    modifies db
    ensures db.recipes == old(db.recipes) && db.collections == old(db.collections)
    ensures !SignedIn(authUserId) ==> reply == Redirect("/signin") && db.users == old(db.users)
    ensures SignedIn(authUserId) && UserWithId(old(db.users), authUserId.value).None? ==>
              reply == ThrownResponse(404, "User not found") && db.users == old(db.users)
    ensures SignedIn(authUserId) && UserWithId(old(db.users), authUserId.value).Some? ==>
              var i := UserWithId(old(db.users), authUserId.value).value;
              && reply == Redirect("/profile")
              && db.users == old(db.users)[i := Updated(old(db.users)[i], form, hash)]
  {
    if !SignedIn(authUserId) {
      return Redirect("/signin");
    }
    var found := UserWithId(db.users, authUserId.value);
    if found.None? {
      return ThrownResponse(404, "User not found");
    }
    var user := db.users[found.value];
    var hashedPassword := user.password;
    if Truthy(form.password) {
      hashedPassword := hash(form.password.value);
    }
    db.users := db.users[found.value := user.(name := Some(form.name), mail := form.email,
                                               image := Some(form.image), password := hashedPassword)];
    reply := Redirect("/profile");
  }
}

=== FILE: recipe_add.dfy ===
/** app/routes/recipe-add.tsx: the new-recipe page. The page keeps the
    list of step inputs as state; the action turns the posted form into a
    recipe record owned by the session user and inserts it. */
module RecipeAdd {
  import opened Common
  import opened Text
  import opened Store

  // ---------------------------------------------------------------------
  // The step inputs

  /** The `steps` state of the page: one text input per step. */
  class StepFields {
    var steps: seq<string>

    /** There is always at least one step input. */
    predicate Valid()
      reads this
    {
      |steps| >= 1
    }

    /** `useState([""])`: a single empty step. */
    constructor ()
      ensures steps == [""] && Valid()
    {
      steps := [""];
    }

    /** `handleStepChange(index, value)`: a copy of the list with position
      `index` set to `value` replaces the list. The page calls it only with
      the index of a rendered input. */
    method HandleStepChange(index: int, value: string)
      requires Valid() && 0 <= index < |steps|
      modifies this
      ensures Valid()
      ensures |steps| == |old(steps)| && steps[index] == value
      ensures forall k :: 0 <= k < |steps| && k != index ==> steps[k] == old(steps)[k]
    {
      var newSteps := steps;
      newSteps := newSteps[index := value];
      steps := newSteps;
    }

    /** `addStepField`: one empty step after the existing ones. */
    method AddStepField()
      requires Valid()
      modifies this
      ensures Valid()
      ensures steps == old(steps) + [""]
    {
      steps := steps + [""];
    }

    /** `removeStepField(index)`: with more than one step, the steps at
      every other index, in order; the last remaining step is never
      removed. */
    method RemoveStepField(index: int)
      requires Valid()
      modifies this
      ensures Valid()
      ensures |old(steps)| > 1 && 0 <= index < |old(steps)| ==>
                && steps == old(steps)[..index] + old(steps)[index + 1..]
                && |steps| == |old(steps)| - 1
                && (forall k :: 0 <= k < index ==> steps[k] == old(steps)[k])
                && (forall k :: index <= k < |steps| ==> steps[k] == old(steps)[k + 1])
      ensures |old(steps)| <= 1 || !(0 <= index < |old(steps)|) ==> steps == old(steps)
    {
      if |steps| > 1 && 0 <= index < |steps| {
        steps := steps[..index] + steps[index + 1..];
      }
    }
  }

  // ---------------------------------------------------------------------
  // The action

  /** The posted form: every text input of the page is always sent (an
      empty input as ""), `steps` once per step input in page order, and
      the `isFavourite` checkbox only when ticked, as "on". */
  datatype AddForm = AddForm(
    title: string,
    description: string,
    ingredients: string,
    steps: seq<string>,
    tags: string,
    estimatedTime: string,
    isFavourite: Option<string>,
    image: string)

  /** The record `Recipe.create` stores for a form and an owner, or `None`
      when `parseInt` yields `NaN`, which the Number field rejects: the
      ingredients and tags split on "," with nothing trimmed, the steps as
      sent, the favourite flag set exactly for "on", and the schema's empty
      membership list. */
  function NewRecipe(form: AddForm, user: Id): (r: Option<Recipe>)
    ensures r.Some? <==> ParseInt(form.estimatedTime).Some?
    ensures r.Some? ==>
              && r.value.title == form.title && r.value.description == form.description
              && r.value.steps == form.steps
              && r.value.estimatedTime == ParseInt(form.estimatedTime).value
              && r.value.user == user
              && r.value.image == Some(form.image)
              && r.value.collections == Some([])
              && (r.value.isFavourite == Some(true) <==> form.isFavourite == Some("on"))
              && r.value.isFavourite.Some?
  {
    match ParseInt(form.estimatedTime)
    case None => None
    case Some(minutes) =>
      Some(Recipe(form.title, form.description, Split(form.ingredients, ','), form.steps,
                  Split(form.tags, ','), minutes, Some(form.isFavourite == Some("on")),
                  Some([]), user, Some(form.image)))
  }

  /** The lists in the record are the posted strings cut at every comma:
      joining them with "," gives the posted strings back, and no piece
      holds a comma. */
  lemma NewRecipeSplitsOnComma(form: AddForm, user: Id)
    requires NewRecipe(form, user).Some?
    ensures var r := NewRecipe(form, user).value;
      && Join(r.ingredients, ',') == form.ingredients
      && Join(r.tags, ',') == form.tags
      && (forall k :: 0 <= k < |r.tags| ==> ',' !in r.tags[k])
      && (forall k :: 0 <= k < |r.ingredients| ==> ',' !in r.ingredients[k])
  {
    JoinSplit(form.ingredients, ',');
    JoinSplit(form.tags, ',');
  }

  /** A cooking time typed as a plain number of minutes is stored as that
      number. */
  lemma NewRecipeMinutes(form: AddForm, user: Id, minutes: nat)
    requires form.estimatedTime == Decimal(minutes)
    ensures NewRecipe(form, user).Some?
    ensures NewRecipe(form, user).value.estimatedTime == minutes
  {
    ParseIntDecimal(minutes);
  }

  const SaveFailed: string := "Failed to save recipe"

  /** The loader: the page needs a session. */
  function Loader(authUserId: Option<Id>): (r: Load<Id>)
    ensures !SignedIn(authUserId) <==> r == Stop(Redirect("/signin"))
    ensures SignedIn(authUserId) ==> r == Loaded(authUserId.value)
  {
    if !SignedIn(authUserId) then Stop(Redirect("/signin")) else Loaded(authUserId.value)
  }

  /** The action. `freshId` is the id the store gives the new record and
      `fault` says whether the store fails the insert. */
  method Action(db: Database, authUserId: Option<Id>, form: AddForm, freshId: Id, fault: bool)
    returns (reply: Reply)
    requires freshId !in db.recipes
    modifies db
    ensures db.collections == old(db.collections) && db.users == old(db.users)
    ensures !SignedIn(authUserId) ==> reply == Redirect("/signin") && db.recipes == old(db.recipes)
    ensures SignedIn(authUserId) && (NewRecipe(form, authUserId.value).None? || fault) ==>
              reply == Data(500, SaveFailed) && db.recipes == old(db.recipes)
    ensures SignedIn(authUserId) && NewRecipe(form, authUserId.value).Some? && !fault ==>
              && reply == Redirect("/")
              && db.recipes == old(db.recipes)[freshId := NewRecipe(form, authUserId.value).value]
  {
    if !SignedIn(authUserId) {
      return Redirect("/signin");
    }
    var record := NewRecipe(form, authUserId.value);
    if record.None? || fault {
      return Data(500, SaveFailed);
    }
    db.recipes := db.recipes[freshId := record.value];
    reply := Redirect("/");
  }
}

=== FILE: recipe_destroy.dfy ===
/** app/routes/recipe-destroy.tsx: deleting a recipe, allowed only to its
    owner. */
module RecipeDestroy {
  import opened Common
  import opened Store

  /** The loader only checks for a session; it renders nothing else. */
  function Loader(authUserId: Option<Id>): (r: Load<()>)
    ensures !SignedIn(authUserId) <==> r == Stop(Redirect("/signin"))
    ensures SignedIn(authUserId) <==> r == Loaded(())
  {
    if !SignedIn(authUserId) then Stop(Redirect("/signin")) else Loaded(())
  }

  /** Which store call, if any, throws inside the `try` block. */
  datatype Fault = NoFault | LookupFails | DeleteFails

  const NotFound: string := "Recipe not found"
  const ServerError: string := "Internal Server Error"

  /** The action: a session, then (inside `try`) the record and its owner,
      then the delete. A throwing store call ends in a 500 reply and leaves
      the store as it was. */
  method Action(db: Database, id: Id, authUserId: Option<Id>, fault: Fault) returns (reply: Reply)
    modifies db
    ensures db.collections == old(db.collections) && db.users == old(db.users)
    ensures !SignedIn(authUserId) ==> reply == Redirect("/signin") && db.recipes == old(db.recipes)
    ensures SignedIn(authUserId) && fault == LookupFails ==>
              reply == Data(500, ServerError) && db.recipes == old(db.recipes)
    ensures SignedIn(authUserId) && fault != LookupFails && id !in old(db.recipes) ==>
              reply == Data(404, NotFound) && db.recipes == old(db.recipes)
    ensures SignedIn(authUserId) && fault != LookupFails && id in old(db.recipes)
            && old(db.recipes)[id].user != authUserId.value ==>
              reply == Redirect("/unauthorized") && db.recipes == old(db.recipes)
    ensures SignedIn(authUserId) && id in old(db.recipes) && old(db.recipes)[id].user == authUserId.value ==>
              && (fault == NoFault ==> reply == Redirect("/") && db.recipes == old(db.recipes) - {id})
              && (fault == DeleteFails ==> reply == Data(500, ServerError) && db.recipes == old(db.recipes))
  {
    if !SignedIn(authUserId) {
      return Redirect("/signin");
    }
    if fault == LookupFails {
      return Data(500, ServerError);
    }
    if id !in db.recipes {
      return Data(404, NotFound);
    }
    if db.recipes[id].user != authUserId.value {
      return Redirect("/unauthorized");
    }
    if fault == DeleteFails {
      return Data(500, ServerError);
    }
    db.recipes := db.recipes - {id};
    reply := Redirect("/");
  }
}

=== FILE: recipe_update.dfy ===
/** app/routes/recipe-update.tsx: the edit page of one recipe. The loader
    fills the form from the stored record (lists joined into text); the
    action lets only the owner write the posted fields back, cutting the
    text into lists again. */
module RecipeUpdate {
  import opened Common
  import opened Text
  import opened Lists
  import opened Store

  // ---------------------------------------------------------------------
  // Loader

  /** What the page renders: the record and the session user. */
  datatype EditPage = EditPage(recipe: Recipe, authUserId: Id)

  /** The loader's guards, in order: a session, then the record, then
      ownership. */
  function Loader(recipes: map<Id, Recipe>, id: Id, authUserId: Option<Id>): (r: Load<EditPage>)
    ensures !SignedIn(authUserId) ==> r == Stop(Redirect("/signin"))
    ensures SignedIn(authUserId) && id !in recipes ==> r == Stop(ThrownResponse(404, "Recipe not found"))
    ensures SignedIn(authUserId) && id in recipes && recipes[id].user != authUserId.value ==>
              r == Stop(Redirect("/unauthorized"))
    ensures r.Loaded? <==> SignedIn(authUserId) && id in recipes && recipes[id].user == authUserId.value
    ensures r.Loaded? ==> r.value == EditPage(recipes[id], authUserId.value)
  {
    if !SignedIn(authUserId) then Stop(Redirect("/signin"))
    else if id !in recipes then Stop(ThrownResponse(404, "Recipe not found"))
    else if recipes[id].user != authUserId.value then Stop(Redirect("/unauthorized"))
    else Loaded(EditPage(recipes[id], authUserId.value))
  }

  /** The loader shows the form to exactly the sessions the action lets
      save it, except an empty user id, which the loader reads as no
      session while the action compares it with the owner like any other
      id. */
  lemma LoaderAdmitsEditors(recipes: map<Id, Recipe>, id: Id, authUserId: Option<Id>)
    ensures Loader(recipes, id, authUserId).Loaded? <==>
              id in recipes && authUserId == Some(recipes[id].user) && authUserId != Some("")
    ensures !SignedIn(authUserId) ==> Loader(recipes, id, authUserId) == Loader(map[], id, authUserId)
  {
  }

  // ---------------------------------------------------------------------
  // The form

  /** The posted form; every input of the page is always sent. */
  datatype EditForm = EditForm(
    title: string,
    description: string,
    image: string,
    ingredients: string,
    steps: string,
    tags: string)

  /** A non-empty list whose items are free of the separator is what its
      joined text splits into. */
  lemma JoinedListSplitsBack(items: seq<string>, sep: char)
    ensures |items| >= 1 && (forall k :: 0 <= k < |items| ==> sep !in items[k]) ==>
              Split(Join(items, sep), sep) == items
  {
    if |items| >= 1 && (forall k :: 0 <= k < |items| ==> sep !in items[k]) {
      SplitJoin(items, sep);
    }
  }

  /** The form as the page first fills it from a record: ingredients and
      steps one per line, tags separated by commas, an unset image as an
      empty input. Cutting a text area at its separators gives the list
      back whenever the list is non-empty and its items are free of the
      separator. */
  function PageForm(r: Recipe): (f: EditForm)
    ensures f.title == r.title && f.description == r.description
    ensures f.image == if r.image.Some? then r.image.value else ""
    ensures |r.ingredients| >= 1 && (forall k :: 0 <= k < |r.ingredients| ==> '\n' !in r.ingredients[k]) ==>
              Split(f.ingredients, '\n') == r.ingredients
    ensures |r.steps| >= 1 && (forall k :: 0 <= k < |r.steps| ==> '\n' !in r.steps[k]) ==>
              Split(f.steps, '\n') == r.steps
    ensures |r.tags| >= 1 && (forall k :: 0 <= k < |r.tags| ==> ',' !in r.tags[k]) ==>
              Split(f.tags, ',') == r.tags
  {
    JoinedListSplitsBack(r.ingredients, '\n');
    JoinedListSplitsBack(r.steps, '\n');
    JoinedListSplitsBack(r.tags, ',');
    EditForm(r.title, r.description, if r.image.Some? then r.image.value else "",
             Join(r.ingredients, '\n'), Join(r.steps, '\n'), Join(r.tags, ','))
  }

  /** `text.split("\n").filter(Boolean)`: the lines of the text, in
      order, with only the empty ones dropped. */
  function ParseLines(text: string): (lines: seq<string>)
    ensures forall k :: 0 <= k < |lines| ==> lines[k] != "" && '\n' !in lines[k]
    ensures IsSubsequence(lines, Split(text, '\n'))
    ensures |lines| + multiset(Split(text, '\n'))[""] == |Split(text, '\n')|
  {
    NonEmpty(Split(text, '\n'))
  }

  /** `text.split(",").map((tag) => tag.trim())`: one tag per comma
      piece, empty pieces kept; no tag holds a comma or surrounding white
      space. */
  function ParseTags(text: string): (tags: seq<string>)
    ensures |tags| == |Split(text, ',')| >= 1
    ensures forall k :: 0 <= k < |tags| ==> tags[k] == Trim(Split(text, ',')[k])
    ensures forall k :: 0 <= k < |tags| ==> ',' !in tags[k] && Trim(tags[k]) == tags[k]
  {
    TrimEachTrimmed(Split(text, ','), ',');
    TrimEach(Split(text, ','))
  }

  /** Lines that are non-empty and hold no line break survive being joined
      into the text area and parsed back. */
  lemma LinesRoundTrip(lines: seq<string>)
    requires forall k :: 0 <= k < |lines| ==> lines[k] != "" && '\n' !in lines[k]
    ensures ParseLines(Join(lines, '\n')) == lines
  {
    if |lines| == 0 {
      assert Split("", '\n') == [""];
    } else {
      SplitJoin(lines, '\n');
      NonEmptyKeepsAll(lines);
    }
  }

  /** A non-empty list of tags with no comma and no surrounding white
      space survives being joined into the input and parsed back. */
  lemma TagsRoundTrip(tags: seq<string>)
    requires |tags| >= 1
    requires forall k :: 0 <= k < |tags| ==> ',' !in tags[k] && Trim(tags[k]) == tags[k]
    ensures ParseTags(Join(tags, ',')) == tags
  {
    SplitJoin(tags, ',');
  }

  /** A recipe without tags comes back from the form with one empty tag:
      the empty input splits into a single empty piece. */
  lemma NoTagsBecomeOneEmptyTag()
    ensures ParseTags(Join([], ',')) == [""]
  {
    assert Split("", ',') == [""];
    assert Trim("") == "";
  }

  /** What `findByIdAndUpdate` writes: the six posted fields replace the
      stored ones; the cooking time, favourite flag, memberships and owner
      stay. */
  function Updated(r: Recipe, form: EditForm): (u: Recipe)
    ensures u.title == form.title && u.description == form.description && u.image == Some(form.image)
    ensures u.ingredients == ParseLines(form.ingredients) && u.steps == ParseLines(form.steps)
    ensures u.tags == ParseTags(form.tags)
    ensures u.estimatedTime == r.estimatedTime && u.isFavourite == r.isFavourite
    ensures u.collections == r.collections && u.user == r.user
  {
    r.(title := form.title, description := form.description, image := Some(form.image),
       ingredients := ParseLines(form.ingredients), steps := ParseLines(form.steps),
       tags := ParseTags(form.tags))
  }

  /** Saving the form unchanged gives the record back, provided its lists
      are in the shape the form can carry: ingredients and steps non-empty
      and free of line breaks, at least one tag, tags free of commas and
      surrounding white space, and an image set. */
  lemma UnchangedFormKeepsRecipe(r: Recipe)
    requires r.image.Some?
    requires forall k :: 0 <= k < |r.ingredients| ==> r.ingredients[k] != "" && '\n' !in r.ingredients[k]
    requires forall k :: 0 <= k < |r.steps| ==> r.steps[k] != "" && '\n' !in r.steps[k]
    requires |r.tags| >= 1
    requires forall k :: 0 <= k < |r.tags| ==> ',' !in r.tags[k] && Trim(r.tags[k]) == r.tags[k]
    ensures Updated(r, PageForm(r)) == r
  {
    LinesRoundTrip(r.ingredients);
    LinesRoundTrip(r.steps);
    TagsRoundTrip(r.tags);
  }

  // ---------------------------------------------------------------------
  // Action

  /** The action. It does not ask for a session on its own: without one,
      `recipe.user !== authUserId` holds and the request is sent to
      /unauthorized like any other non-owner. */
  method Action(db: Database, id: Id, authUserId: Option<Id>, form: EditForm) returns (reply: Reply)
    modifies db
    ensures db.collections == old(db.collections) && db.users == old(db.users)
    ensures id !in old(db.recipes) ==>
              reply == ThrownResponse(404, "Recipe not found") && db.recipes == old(db.recipes)
    ensures id in old(db.recipes) && authUserId != Some(old(db.recipes)[id].user) ==>
              reply == Redirect("/unauthorized") && db.recipes == old(db.recipes)
    ensures id in old(db.recipes) && authUserId == Some(old(db.recipes)[id].user) ==>
              && reply == Redirect("/recipes/" + id)
              && db.recipes == old(db.recipes)[id := Updated(old(db.recipes)[id], form)]
  {
    if id !in db.recipes {
      return ThrownResponse(404, "Recipe not found");
    }
    var recipe := db.recipes[id];
    if authUserId != Some(recipe.user) {
      return Redirect("/unauthorized");
    }
    db.recipes := db.recipes[id := Updated(recipe, form)];
    reply := Redirect("/recipes/" + id);
  }
}

=== FILE: remove_from_collection.dfy ===
/** app/routes/remove-from-collection.ts: taking a recipe out of the
    collection `id` by dropping that id from its membership list. */
module RemoveFromCollection {
  import opened Common
  import opened Lists
  import opened Store

  /** The recipe after `recipe.collections = (recipe.collections || [])
      .filter((col) => col.toString() !== id)`: the list is always set. */
  function WithoutMembership(r: Recipe, collectionId: Id): (u: Recipe)
    ensures u.collections.Some?
    ensures collectionId !in Memberships(u)
    ensures forall c :: c != collectionId ==> (c in Memberships(u) <==> c in Memberships(r))
    ensures u.(collections := r.collections) == r
  {
    r.(collections := Some(Filter(Memberships(r), (c: Id) => c != collectionId)))
  }

  /** The other memberships keep their order, and a list without the id
      comes back as it was. */
  lemma WithoutMembershipKeepsOrder(r: Recipe, collectionId: Id)
    ensures IsSubsequence(Memberships(WithoutMembership(r, collectionId)), Memberships(r))
    ensures collectionId !in Memberships(r) ==> Memberships(WithoutMembership(r, collectionId)) == Memberships(r)
  {
    FilterSubsequence(Memberships(r), (c: Id) => c != collectionId);
    if collectionId !in Memberships(r) {
      FilterKeepsAll(Memberships(r), (c: Id) => c != collectionId);
    }
  }

  /** Removing twice is removing once. */
  lemma WithoutMembershipIdempotent(r: Recipe, collectionId: Id)
    ensures WithoutMembership(WithoutMembership(r, collectionId), collectionId) == WithoutMembership(r, collectionId)
  {
    var once := WithoutMembership(r, collectionId);
    FilterKeepsAll(Memberships(once), (c: Id) => c != collectionId);
  }

  const IdRequired: string := "Recipe ID is required"
  const NotFound: string := "Recipe not found"

  /** The action for collection `id` and the posted `recipeId`. It checks
      neither a session, ownership, nor that the collection exists. */
  method Action(db: Database, id: Id, recipeId: Option<Id>) returns (reply: Reply)
    modifies db
    ensures db.collections == old(db.collections) && db.users == old(db.users)
    ensures !Truthy(recipeId) ==> reply == Data(400, IdRequired) && db.recipes == old(db.recipes)
    ensures Truthy(recipeId) && recipeId.value !in old(db.recipes) ==>
              reply == Data(404, NotFound) && db.recipes == old(db.recipes)
    ensures Truthy(recipeId) && recipeId.value in old(db.recipes) ==>
              && reply == Redirect("/collections/" + id)
              && db.recipes == old(db.recipes)[recipeId.value := WithoutMembership(old(db.recipes)[recipeId.value], id)]
  {
    if !Truthy(recipeId) {
      return Data(400, IdRequired);
    }
    if recipeId.value !in db.recipes {
      return Data(404, NotFound);
    }
    var recipe := db.recipes[recipeId.value];
    db.recipes := db.recipes[recipeId.value := WithoutMembership(recipe, id)];
    reply := Redirect("/collections/" + id);
  }
}

=== FILE: store.dfy ===
/** The document store the routes read and write, reduced to its records:
    recipes and collections keyed by id, and the users in the collection's
    natural order (sign-in looks a user up by mail with `findOne`, which
    returns the first match). */
module Store {
  import opened Common
  import opened Lists

  /** A stored recipe (the fields of the Recipe schema). `estimatedTime` is
      a whole number here; `isFavourite`, `collections` and `image` may be
      unset on a record. */
  datatype Recipe = Recipe(
    title: string,
    description: string,
    ingredients: seq<string>,
    steps: seq<string>,
    tags: seq<string>,
    estimatedTime: int,
    isFavourite: Option<bool>,
    collections: Option<seq<Id>>,
    user: Id,
    image: Option<string>)

  /** A stored collection (the fields of the Collections schema). */
  datatype Collection = Collection(
    name: string,
    description: Option<string>,
    image: Option<string>,
    user: Option<Id>)

  /** A stored user; `password` holds the bcrypt hash. */
  datatype User = User(
    id: Id,
    mail: string,
    name: Option<string>,
    image: Option<string>,
    password: string)

  /** `recipe.collections || []`: an unset membership list reads as empty. */
  function Memberships(r: Recipe): seq<Id> {
    if r.collections.Some? then r.collections.value else []
  }

  /** `User.findById(id)`: the position of the user with that id, if any
      (the first, should ids repeat). */
  function UserWithId(users: seq<User>, id: Id): Option<nat> {
    FirstMatch(users, (u: User) => u.id == id)
  }

  /** `User.findOne({ mail })`: the position of the first user, in the
      collection's natural order, whose mail is exactly `mail`. */
  function UserWithMail(users: seq<User>, mail: string): Option<nat> {
    FirstMatch(users, (u: User) => u.mail == mail)
  }

  /** The store. Each route action that writes is a method with
      `modifies db` whose postconditions give every field's new value. */
  class Database {
    var recipes: map<Id, Recipe>
    var collections: map<Id, Collection>
    var users: seq<User>

    constructor ()
      ensures recipes == map[] && collections == map[] && users == []
    {
      recipes := map[];
      collections := map[];
      users := [];
    }
  }
}

=== FILE: text.dfy ===
/** The JavaScript string and array operations the application relies on
    (`trim`, `toLowerCase`, `includes`, `split`, `join`, `filter(Boolean)`,
    `parseInt`), written over Dafny strings, with the facts the routes need
    about them. */
module Text {
  import opened Common
  import opened Lists

  // ---------------------------------------------------------------------
  // trim

  /** The characters `String.prototype.trim` strips: ECMAScript's WhiteSpace
      (tab, vertical tab, form feed, space, no-break space, the byte order
      mark and the Zs space separators) and LineTerminator characters. */
  predicate IsSpace(c: char) {
    c == '\t' || c == '\n' || c == '\U{000B}' || c == '\U{000C}' || c == '\r'
    || c == ' ' || c == '\U{00A0}' || c == '\U{1680}'
    || ('\U{2000}' <= c <= '\U{200A}')
    || c == '\U{2028}' || c == '\U{2029}' || c == '\U{202F}' || c == '\U{205F}'
    || c == '\U{3000}' || c == '\U{FEFF}'
  }

  /** Strips leading white space; the result is the suffix of `s` that
      starts at its first non-space character. */
  function TrimStart(s: string): (r: string)
    ensures |r| <= |s| && r == s[|s| - |r|..]
    ensures r == [] || !IsSpace(r[0])
    ensures forall i :: 0 <= i < |s| - |r| ==> IsSpace(s[i])
  {
    if |s| > 0 && IsSpace(s[0]) then TrimStart(s[1..]) else s
  }

  /** Strips trailing white space; the result is the prefix of `s` that
      ends at its last non-space character. */
  function TrimEnd(s: string): (r: string)
    ensures |r| <= |s| && r == s[..|r|]
    ensures r == [] || !IsSpace(r[|r| - 1])
    ensures forall i :: |r| <= i < |s| ==> IsSpace(s[i])
  {
    if |s| > 0 && IsSpace(s[|s| - 1]) then TrimEnd(s[..|s| - 1]) else s
  }

  /** `s.trim()`. */
  function Trim(s: string): string {
    TrimEnd(TrimStart(s))
  }

  /** `s.trim() === ""`. */
  predicate IsBlank(s: string) {
    Trim(s) == ""
  }

  /** A string trims to nothing exactly when every character is white space. */
  lemma BlankIffAllSpace(s: string)
    ensures IsBlank(s) <==> forall i :: 0 <= i < |s| ==> IsSpace(s[i])
  {
    var t := TrimStart(s);
    if IsBlank(s) {
      forall i | 0 <= i < |s| ensures IsSpace(s[i]) {
        if i >= |s| - |t| {
          assert t[i - (|s| - |t|)] == s[i];
        }
      }
    } else {
      var r := Trim(s);
      assert r != [] && !IsSpace(r[0]) && r[0] == t[0] == s[|s| - |t|];
    }
  }

  /** Trimming a string whose ends are not white space leaves it as it is. */
  lemma TrimUntrimmed(s: string)
    requires s == [] || (!IsSpace(s[0]) && !IsSpace(s[|s| - 1]))
    ensures Trim(s) == s
  {
  }

  // ---------------------------------------------------------------------
  // toLowerCase and includes

  /** Lower-cases one character (the ASCII letters A-Z). */
  function LowerChar(c: char): (d: char)
    ensures 'A' <= c <= 'Z' ==> 'a' <= d <= 'z' && d as int == c as int + 32
    ensures !('A' <= c <= 'Z') ==> d == c
  {
    if 'A' <= c <= 'Z' then (c as int + 32) as char else c
  }

  /** `s.toLowerCase()`, restricted to the ASCII letters. */
  function ToLower(s: string): (r: string)
    ensures |r| == |s|
    ensures forall i :: 0 <= i < |s| ==> r[i] == LowerChar(s[i])
  {
    seq(|s|, i requires 0 <= i < |s| => LowerChar(s[i]))
  }

  /** Lower-casing twice is lower-casing once. */
  lemma ToLowerIdempotent(s: string)
    ensures ToLower(ToLower(s)) == ToLower(s)
  {
    assert forall i :: 0 <= i < |s| ==> ToLower(ToLower(s))[i] == ToLower(s)[i];
  }

  /** `t` occurs in `s` starting at position `i`. */
  predicate OccursAt(s: string, t: string, i: int) {
    0 <= i && i + |t| <= |s| && s[i..i + |t|] == t
  }

  /** `s.includes(t)`: some window of `s` equals `t` (so every string
      includes the empty string). */
  predicate Contains(s: string, t: string) {
    exists i | 0 <= i <= |s| :: OccursAt(s, t, i)
  }

  /** An occurrence survives lower-casing: if `s` includes `t`, then the
      lower-cased `s` includes the lower-cased `t`. */
  lemma ContainsToLower(s: string, t: string)
    requires Contains(s, t)
    ensures Contains(ToLower(s), ToLower(t))
  {
    var i :| 0 <= i <= |s| && OccursAt(s, t, i);
    assert forall k :: 0 <= k < |t| ==> ToLower(s)[i + k] == LowerChar(t[k]);
    assert ToLower(s)[i..i + |t|] == ToLower(t);
    assert OccursAt(ToLower(s), ToLower(t), i);
  }

  // ---------------------------------------------------------------------
  // split and join with a one-character separator

  /** `s.split(sep)`: the maximal pieces between separators, in order;
      the empty string splits into one empty piece. */
  function Split(s: string, sep: char): (parts: seq<string>)
    ensures |parts| >= 1
    ensures forall k :: 0 <= k < |parts| ==> sep !in parts[k]
  {
    if |s| == 0 then [""]
    else if s[0] == sep then [""] + Split(s[1..], sep)
    else
      var rest := Split(s[1..], sep);
      [[s[0]] + rest[0]] + rest[1..]
  }

  /** `parts.join(sep)`. */
  function Join(parts: seq<string>, sep: char): string {
    if |parts| == 0 then ""
    else if |parts| == 1 then parts[0]
    else parts[0] + [sep] + Join(parts[1..], sep)
  }

  /** Splitting a string and joining the pieces again gives the string back. */
  lemma {:induction false} JoinSplit(s: string, sep: char)
    ensures Join(Split(s, sep), sep) == s
  {
    if |s| == 0 {
    } else if s[0] == sep {
      JoinSplit(s[1..], sep);
      assert s == [sep] + s[1..];
    } else {
      JoinSplit(s[1..], sep);
      var rest := Split(s[1..], sep);
      assert s == [s[0]] + s[1..];
      if |rest| == 1 {
      } else {
        assert ([[s[0]] + rest[0]] + rest[1..])[1..] == rest[1..];
      }
    }
  }

  /** A piece with no separator in it splits into itself alone. */
  lemma {:induction false} SplitNoSeparator(a: string, sep: char)
    requires sep !in a
    ensures Split(a, sep) == [a]
  {
    if |a| > 0 {
      SplitNoSeparator(a[1..], sep);
      assert [a[0]] + a[1..] == a;
    }
  }

  /** A separator after a separator-free piece `a` cuts exactly there. */
  lemma {:induction false} SplitAfterPiece(a: string, sep: char, b: string)
    requires sep !in a
    ensures Split(a + [sep] + b, sep) == [a] + Split(b, sep)
  {
    if |a| == 0 {
      assert a + [sep] + b == [sep] + b;
      assert ([sep] + b)[1..] == b;
    } else {
      SplitAfterPiece(a[1..], sep, b);
      var s := a + [sep] + b;
      assert s[0] == a[0] && s[1..] == a[1..] + [sep] + b;
      assert [a[0]] + a[1..] == a;
    }
  }

  /** Joining pieces that hold no separator and splitting the result again
      gives the pieces back. */
  lemma {:induction false} SplitJoin(parts: seq<string>, sep: char)
    requires |parts| >= 1
    requires forall k :: 0 <= k < |parts| ==> sep !in parts[k]
    ensures Split(Join(parts, sep), sep) == parts
  {
    if |parts| == 1 {
      SplitNoSeparator(parts[0], sep);
    } else {
      SplitJoin(parts[1..], sep);
      SplitAfterPiece(parts[0], sep, Join(parts[1..], sep));
      assert [parts[0]] + parts[1..] == parts;
    }
  }

  // ---------------------------------------------------------------------
  // filter(Boolean) and map(trim)

  /** `xs.filter(Boolean)` on strings: drops the empty strings and keeps
      the others in order. The result is a subsequence of `xs` shorter by
      exactly the number of empty strings in `xs`, so every non-empty
      string is kept, as often as it occurs. */
  function NonEmpty(xs: seq<string>): (r: seq<string>)
    ensures forall k :: 0 <= k < |r| ==> r[k] != "" && r[k] in xs
    ensures forall x :: x in xs && x != "" ==> x in r
    ensures IsSubsequence(r, xs)
    ensures |r| + multiset(xs)[""] == |xs|
  {
    if |xs| == 0 then []
    else
      assert xs == [xs[0]] + xs[1..];
      if xs[0] == "" then NonEmpty(xs[1..])
      else
        var r := [xs[0]] + NonEmpty(xs[1..]);
        assert r[1..] == NonEmpty(xs[1..]);
        r
  }

  /** Filtering a list that holds no empty string changes nothing. */
  lemma {:induction false} NonEmptyKeepsAll(xs: seq<string>)
    requires forall k :: 0 <= k < |xs| ==> xs[k] != ""
    ensures NonEmpty(xs) == xs
  {
    if |xs| > 0 {
      NonEmptyKeepsAll(xs[1..]);
      assert [xs[0]] + xs[1..] == xs;
    }
  }

  /** Trimming is idempotent, and keeps only characters of the string. */
  lemma TrimTrimmed(s: string)
    ensures Trim(Trim(s)) == Trim(s)
    ensures forall c :: c in Trim(s) ==> c in s
  {
    var t := TrimStart(s);
    var r := Trim(s);
    if r != [] {
      assert r[0] == t[0];
      TrimUntrimmed(r);
    }
    forall c | c in r ensures c in s {
      var i :| 0 <= i < |r| && r[i] == c;
      assert r[i] == t[i] == s[|s| - |t| + i];
    }
  }

  /** Pieces free of `c` stay free of `c` after trimming, and come out
      already trimmed. */
  lemma TrimEachTrimmed(xs: seq<string>, c: char)
    requires forall k :: 0 <= k < |xs| ==> c !in xs[k]
    ensures forall k :: 0 <= k < |xs| ==> c !in TrimEach(xs)[k] && Trim(TrimEach(xs)[k]) == TrimEach(xs)[k]
  {
    forall k | 0 <= k < |xs|
      ensures c !in TrimEach(xs)[k] && Trim(TrimEach(xs)[k]) == TrimEach(xs)[k]
    {
      TrimTrimmed(xs[k]);
    }
  }

  /** `xs.map((x) => x.trim())`. */
  function TrimEach(xs: seq<string>): (r: seq<string>)
    ensures |r| == |xs|
    ensures forall k :: 0 <= k < |xs| ==> r[k] == Trim(xs[k])
  {
    seq(|xs|, k requires 0 <= k < |xs| => Trim(xs[k]))
  }

  // ---------------------------------------------------------------------
  // parseInt(s, 10)

  predicate IsDigit(c: char) {
    '0' <= c <= '9'
  }

  /** The longest prefix of `s` made of decimal digits. */
  function DigitPrefix(s: string): (d: string)
    ensures d <= s
    ensures forall i :: 0 <= i < |d| ==> IsDigit(d[i])
    ensures |d| == |s| || !IsDigit(s[|d|])
  {
    if |s| > 0 && IsDigit(s[0]) then [s[0]] + DigitPrefix(s[1..]) else ""
  }

  /** The value of a string of decimal digits, most significant first. */
  function DigitsValue(d: string): nat
    requires forall i :: 0 <= i < |d| ==> IsDigit(d[i])
  {
    if |d| == 0 then 0
    else
      assert IsDigit(d[|d| - 1]);
      DigitsValue(d[..|d| - 1]) * 10 + (d[|d| - 1] as int - '0' as int)
  }

  /** `parseInt(s, 10)`: skips leading white space, reads an optional sign
      and then the longest run of digits; `None` stands for `NaN`, which is
      the result when no digit follows. Trailing characters are ignored. */
  function ParseInt(s: string): (r: Option<int>)
    ensures r.None? <==> DigitPrefix(SignedBody(TrimStart(s))) == ""
  {
    var t := TrimStart(s);
    var d := DigitPrefix(SignedBody(t));
    if d == "" then None
    else
      var v: int := DigitsValue(d);
      if |t| > 0 && t[0] == '-' then Some(-v) else Some(v)
  }

  /** What follows an optional leading sign. */
  function SignedBody(t: string): string {
    if |t| > 0 && (t[0] == '-' || t[0] == '+') then t[1..] else t
  }

  /** The canonical decimal notation of a natural number. */
  function Decimal(n: nat): (d: string)
    ensures |d| >= 1
    ensures forall i :: 0 <= i < |d| ==> IsDigit(d[i])
  {
    if n < 10 then [('0' as int + n) as char]
    else Decimal(n / 10) + [('0' as int + n % 10) as char]
  }

  /** Reading back the decimal notation of `n` gives `n`. */
  lemma {:induction false} DecimalValue(n: nat)
    ensures DigitsValue(Decimal(n)) == n
  {
    if n >= 10 {
      DecimalValue(n / 10);
      var d := Decimal(n);
      assert d[..|d| - 1] == Decimal(n / 10);
    }
  }

  /** A string of digits is its own digit prefix. */
  lemma {:induction false} DigitPrefixAllDigits(d: string)
    requires forall i :: 0 <= i < |d| ==> IsDigit(d[i])
    ensures DigitPrefix(d) == d
  {
    if |d| > 0 {
      DigitPrefixAllDigits(d[1..]);
      assert [d[0]] + d[1..] == d;
    }
  }

  /** `parseInt` reads the decimal notation of a natural number back exactly. */
  lemma ParseIntDecimal(n: nat)
    ensures ParseInt(Decimal(n)) == Some(n)
  {
    var d := Decimal(n);
    assert IsDigit(d[0]);
    TrimStartKeeps(d);
    assert SignedBody(d) == d;
    DigitPrefixAllDigits(d);
    DecimalValue(n);
    ParseIntReads(d, d, d);
  }

  /** How `parseInt` reads a string once its trimmed form and digit run
      are known. */
  lemma ParseIntReads(s: string, t: string, d: string)
    requires TrimStart(s) == t && DigitPrefix(SignedBody(t)) == d && d != ""
    ensures ParseInt(s) == if |t| > 0 && t[0] == '-' then Some(0 - DigitsValue(d)) else Some(DigitsValue(d))
  {
  }

  /** A string starting with a character other than white space is its
      own `trimStart`. */
  lemma TrimStartKeeps(s: string)
    requires |s| > 0 && !IsSpace(s[0])
    ensures TrimStart(s) == s
  {
  }

  /** A run of digits, followed by anything but a digit, reads as the
      value of the digits. */
  lemma ParseIntDigits(d: string, rest: string)
    requires |d| >= 1 && forall i :: 0 <= i < |d| ==> IsDigit(d[i])
    requires rest == [] || !IsDigit(rest[0])
    ensures ParseInt(d + rest) == Some(DigitsValue(d))
  {
    var m := d + rest;
    assert m[0] == d[0] && IsDigit(m[0]);
    TrimStartKeeps(m);
    assert SignedBody(m) == m;
    DigitPrefixSplit(d, rest);
    ParseIntReads(m, m, d);
  }

  /** Text after the digits does not change what `parseInt` reads:
      `"25min"` reads as 25. */
  lemma ParseIntIgnoresSuffix(n: nat, rest: string)
    requires rest == [] || !IsDigit(rest[0])
    ensures ParseInt(Decimal(n) + rest) == Some(n)
  {
    ParseIntDigits(Decimal(n), rest);
    DecimalValue(n);
  }

  /** The digit prefix stops where the digits stop. */
  lemma {:induction false} DigitPrefixSplit(d: string, rest: string)
    requires forall i :: 0 <= i < |d| ==> IsDigit(d[i])
    requires rest == [] || !IsDigit(rest[0])
    ensures DigitPrefix(d + rest) == d
  {
    if |d| > 0 {
      DigitPrefixSplit(d[1..], rest);
      assert (d + rest)[1..] == d[1..] + rest;
      assert [d[0]] + d[1..] == d;
    }
  }
}
